=== FILE: README.md ===
# Offline support and analytics of a programming-techniques guide

The guide is a static documentation site. This project models three parts of it in Dafny and proves properties of each:

- **The service worker** (`site/sw.js`). On `install` it precaches a fixed list of site paths under a versioned cache name. On `activate` it deletes every other cache. On `fetch` it answers same-origin GET requests from the cache first, then from the network. It stores each `200 basic` response, and when the network fails, a navigation gets the cached offline page.
- **The build script** (`scripts/build-sw.js`) that regenerates the worker:
  - it stamps a fresh version (`v` + base-36 time + `-` + at most six random characters);
  - it lists the cacheable files of the built site (an extension whitelist, some directories skipped, URLs with forward slashes);
  - it writes the worker and stamps the version into both `manifest.json` files;
  - it exits with status 1, writing nothing, when the site has not been built.
- **The analytics script** (`docs/assets/js/analytics.js`). Trackers start according to a configuration whose `enabled` flag gates them all. Scroll depth milestones 25, 50, 75, 90 and 100 are each logged once. A search query is logged when its trimmed length is over two. The copy-button language is the word after the leftmost `language-` in the class string that is followed by a word character (the pattern is unanchored, so `no-language-go` gives `go`), or else `unknown`. Every beacon carries a session id that is created once and then reused.

Modules:

- `CacheStorage` (cache_storage.dfy) models the browser's Cache Storage as a sequence of uniquely named caches of URL-to-response maps.
- `ServiceWorker` (service_worker.dfy) holds the three handlers and the shipped constants.
- `SiteFiles` (site_files.dfy) models `path.extname`, the extension whitelist, `getAllFiles` and an independent reference definition of the listing.
- `Build` (build.dfy) covers the version, the generated worker, the manifests and the whole build run.
- `Analytics` (analytics.dfy) models the analytics script.
- `Text` (text.dfy) models the JavaScript string primitives these rely on: ECMAScript `trim` and its whitespace set, UTF-16 length, `toString(36)`, `substring`/`substr`, ASCII `toLowerCase`, and the separator replacement.
- `Wrappers` (wrappers.dfy) provides `Option`.

Things outside the program's control become parameters:

- the clock (`now`, in milliseconds);
- the text of `Math.random().toString(36)`;
- the network's answer to each URL;
- the site's directory tree and the two manifest files;
- the presence of `gtag`, `fetch`, the search box and `performance.timing`;
- the scroll percentage (an integer);
- the `sessionStorage` slot.

A few behaviours of the code that a reader might not expect are stated as lemmas:

- `PrefixTestAdmitsLongerHost`: the same-origin test is a plain string-prefix test.
- `DisabledStillReportsErrors`: error listeners and the performance report do not depend on `enabled`.
- `AstralPairLogged`: the length test counts UTF-16 code units.
- `BackslashNameCollides`: on a POSIX system a file name containing `\` can produce the same URL as a file one directory down, and the worker built from such a site never precaches anything (`BackslashSiteNeverPrecaches`).
- `FailedInstallThenActivate`: a refused precache batch is swallowed, so the worker still installs and activates; it then holds an empty cache and a navigation with the network down gets `undefined`.
- `EmptyLanguageSkipped`: `language-` followed by no word character does not match.
- `Build.StampVersion`: a `null` manifest makes the build throw.

## Model

| member | source | states |
|---|---|---|
| `CacheStorage.Open` | site/sw.js:102 | `caches.open` yields the named cache; an existing name leaves the store as it was, and an absent one adds an empty cache after all others, so lookup order is kept |
| `CacheStorage.Delete` | site/sw.js:127 | `caches.delete` removes exactly the named cache: an absent name changes nothing, and otherwise the store is the old one with that one position cut out, every other cache keeping its contents and its order |
| `CacheStorage.WithoutAt` | site/sw.js:127 | removing the name of the cache at a position removes exactly that position |
| `CacheStorage.Put` | site/sw.js:170-173 | `cache.put` sets one URL of the named cache (creating the cache if needed); every other URL and every other cache is unchanged, and the caches keep the order `caches.open` gives them |
| `CacheStorage.Match` | site/sw.js:152 | `caches.match` finds nothing iff no cache holds the URL; otherwise it returns the entry of the first cache, in creation order, that holds it |
| `CacheStorage.MatchAfterPut` | site/sw.js:152-173 | after a miss is stored, the next lookup of that URL finds exactly the stored response |
| `ServiceWorker.PrecacheListFacts` | site/sw.js:2-96 | the shipped precache list has 93 entries and includes `/offline.html` |
| `ServiceWorker.Install` | site/sw.js:99-115 | install opens `CACHE_NAME`; `skipWaiting` is reached iff the precache list repeats no path and `addAll` accepts every precache URL's response; on success the cache's URLs are exactly its old ones plus the precache URLs, each precache URL mapping to its fetched response and the other entries kept; on failure nothing is added (the error is swallowed); other caches are untouched |
| `ServiceWorker.FailedInstallThenActivate` | site/sw.js:99-184 | when install's batch is refused and `CACHE_NAME` did not exist, activation leaves it the only cache, and empty, and an offline navigation gets `undefined` |
| `ServiceWorker.DuplicatePrecacheRefused` | site/sw.js:102-113 | a precache list that names a path twice makes `addAll` reject, so install only opens the cache and never reaches `skipWaiting` |
| `ServiceWorker.InstallFailureSwallowed` | site/sw.js:102-113 | one refused precache response leaves the store with at most a new empty `CACHE_NAME` and no `skipWaiting` |
| `ServiceWorker.DeleteOthers` | site/sw.js:121-131 | deleting the listed names other than the kept one: a name ends up absent iff it was listed and is not the kept one; every other name keeps its contents |
| `ServiceWorker.Activate` | site/sw.js:118-137 | after activation `CACHE_NAME` is the only cache left, with its contents unchanged |
| `ServiceWorker.ActivateIdempotent` | site/sw.js:118-137 | activating a second time changes nothing |
| `ServiceWorker.Fetch` | site/sw.js:140-187 | the handler responds iff the request is GET and its URL starts with the origin; it uses the network iff it responds and the cache misses; only `CACHE_NAME` can change, and only by storing a delivered `200 basic` response, which is also what the page gets |
| `ServiceWorker.Intercepts` | site/sw.js:142-149 | a request is intercepted only if it is a GET whose URL is the origin followed by some rest |
| `ServiceWorker.InterceptsExtension` | site/sw.js:142-149 | every GET whose URL is the origin followed by anything is intercepted |
| `ServiceWorker.NonGetNotIntercepted` | site/sw.js:142-144 | a non-GET request is left to the browser and changes nothing |
| `ServiceWorker.PrefixTestAdmitsLongerHost` | site/sw.js:147-149 | a URL on a different host that extends the origin string is still intercepted |
| `ServiceWorker.CacheHitServedAsIs` | site/sw.js:152-157 | a cached response is served unchanged, without the network and without changing the store |
| `ServiceWorker.MissStoresOnlyOkBasic` | site/sw.js:160-175 | on a miss the page gets the network response; it is stored iff its status is 200 and its type is `basic` |
| `ServiceWorker.NetworkFailureFallback` | site/sw.js:177-184 | after a network failure a navigation gets the cached offline page (possibly `undefined`) and any other request gets the error again |
| `ServiceWorker.StoredResponseServedNext` | site/sw.js:152-173 | a response stored by one fetch is served from the cache to the next identical request |
| `ServiceWorker.PrecacheServedAfterActivation` | site/sw.js:99-157 | after a successful install and an activation, every precached path is served from the cache with the response fetched at install time |
| `ServiceWorker.PrecacheInstalled` | site/sw.js:99-137 | after a successful install and an activation, `CACHE_NAME` holds every precache URL, mapped to the response the network gave for it at install time |
| `ServiceWorker.UncachedAfterActivation` | site/sw.js:99-137 | a URL that is neither a precache URL nor in the old `CACHE_NAME` is still missing from that cache after a successful install and an activation |
| `ServiceWorker.CachedServed` | site/sw.js:140-157 | an intercepted request that some cache matches is answered with the matched response, without the network and without changing the store |
| `ServiceWorker.OfflinePageAfterActivation` | site/sw.js:99-184 | after install and activation, a navigation with the network down to a page neither precached nor in the old `CACHE_NAME` gets the precached offline page |
| `Build.GenerateVersion` | scripts/build-sw.js:13-17 | the version starts with `v` and parses back into the clock value and the (at most six) random characters |
| `Build.VersionRoundTrip` | scripts/build-sw.js:16 | a base-36 numeral and a tail of at most six characters are recovered from `v<numeral>-<tail>` |
| `Build.VersionsDifferInTime` | scripts/build-sw.js:14-16 | builds at different milliseconds get different versions, whatever the random parts |
| `Build.ShippedVersionGenerated` | scripts/build-sw.js:13-17 | the version in the shipped worker is a generated one: time `mgestecm` in base 36, random part `yd5c73` |
| `Build.GenerateServiceWorker` | scripts/build-sw.js:46-164 | the generated cache name is `tech-guide-` followed by the version; the precache list is the URL list; both announced counts equal its length |
| `Build.CacheNameInjective` | scripts/build-sw.js:47 | two generated workers with the same cache name were built with the same version |
| `Build.ShippedWorkerGenerated` | scripts/build-sw.js:46-56 | generating from the shipped version and list gives the shipped worker, announcing 93 files |
| `Build.NewBuildRetiresOldCache` | scripts/build-sw.js:69-88 | activating a worker of a new version deletes the cache of any other version |
| `Build.StampVersion` | scripts/build-sw.js:194-197 | stamping fails iff the manifest is `null`; an object gets `version` and `version_name` set to the version, with every other key kept; any other value is written back unchanged |
| `Build.StampIdempotent` | scripts/build-sw.js:195-196 | stamping twice with the same version is stamping once |
| `Build.StampCarriesVersion` | scripts/build-sw.js:195-197 | a stamped manifest that is an object carries the version under both keys |
| `Build.UpdateManifest` | scripts/build-sw.js:193-197 | a manifest can be updated iff it parses and is not `null`; the update is the parsed JSON with the version stamped in |
| `Build.StampedWrite` | scripts/build-sw.js:193-208 | a manifest file contributes one write iff it is present, parses and is not `null` |
| `Build.ManifestStep` | scripts/build-sw.js:193-208 | an absent manifest is skipped; a present one either appends exactly its stamped write or stops the build |
| `Build.BuildServiceWorker` | scripts/build-sw.js:168-211 | a missing site gives no writes and exit code 1; otherwise the first write is the worker generated from the site's listing and the version, followed by exactly the stamped site manifest when it is present and readable, then the stamped docs manifest unless the site manifest was present and unreadable; the exit code is 0 or 1 |
| `Build.BuildSucceedsIff` | scripts/build-sw.js:168-211 | the build exits 0 iff the site exists and each present manifest parses to a non-`null` value |
| `Build.ManifestsCarryWorkerVersion` | scripts/build-sw.js:178-208 | after the worker only manifest writes follow, site before docs and each only when present; every stamped object carries the version the worker's cache is named after |
| `Build.EveryManifestStamped` | scripts/build-sw.js:178-211 | when the site exists and each present manifest is readable, the build exits 0 and after the worker writes exactly the stamped site and docs manifests, each when present |
| `Build.BackslashSiteNeverPrecaches` | scripts/build-sw.js:20-57 | a site holding `<d>\<name>` beside `<d>/<name>` yields a worker whose install, for every network, only opens its cache and never reaches `skipWaiting` |
| `Build.MissingSiteWritesNothing` | scripts/build-sw.js:172-175 | without the site directory nothing is written and the exit code is 1 |
| `Build.UnreadableSiteManifestStopsBuild` | scripts/build-sw.js:189-208 | an unparsable or `null` site manifest stops the build with exit code 1 after the worker is written, so the docs manifest is not touched |
| `SiteFiles.ExtName` | scripts/build-sw.js:34 | `path.extname`: empty, or a dot followed by no other dot, and always a proper suffix of the name |
| `SiteFiles.ExtNameOfSuffix` | scripts/build-sw.js:34 | a name with a non-empty stem ends in its extension |
| `SiteFiles.IsCacheable` | scripts/build-sw.js:34-35 | a listed name has an extension of at least two characters and a non-empty stem |
| `SiteFiles.UpperCaseExtensionCacheable` | scripts/build-sw.js:34-35 | the extension is lower-cased before the whitelist test: a name with a non-empty stem passes whenever its last extension, in any case, lower-cases to a whitelisted one |
| `SiteFiles.DotFileNotCacheable` | scripts/build-sw.js:34-35 | a name whose only dot is its first character (`.js`) has no extension and is not listed |
| `SiteFiles.LastExtensionCounts` | scripts/build-sw.js:34-35 | only the last extension counts (`bundle.js.map` is not listed) |
| `Text.ToLower` | scripts/build-sw.js:34 | each ASCII upper-case letter becomes the letter 32 code points above it, every other character is kept, and the length is unchanged |
| `Text.ReplaceAll` | scripts/build-sw.js:36 | `replace(/\\/g, '/')`: every `\` becomes `/`, every other character is kept, and the length is unchanged |
| `Text.ReplaceAllFree` | scripts/build-sw.js:36 | a name without `\` is unchanged by the replacement |
| `SiteFiles.FileUrl` | scripts/build-sw.js:36 | a file's URL starts with `/` and holds no backslash |
| `SiteFiles.UrlIndependentOfSeparator` | scripts/build-sw.js:36 | the URL is the same whether the platform joins with `\` or `/` |
| `SiteFiles.FileUrlInjective` | scripts/build-sw.js:36 | distinct relative paths of separator-free names have distinct URLs |
| `SiteFiles.GetAllFiles` | scripts/build-sw.js:20-43 | the walk only appends to the list it is given, and only site URLs |
| `SiteFiles.AddEntry` | scripts/build-sw.js:23-40 | one directory entry only appends site URLs |
| `SiteFiles.SiteUrls` | scripts/build-sw.js:182 | every URL in the build's list is a site URL |
| `SiteFiles.GetAllFilesAppendsListed` | scripts/build-sw.js:20-43 | the walk appends exactly the URLs of the reference listing, in order |
| `SiteFiles.AddEntryListed` | scripts/build-sw.js:23-40 | one entry appends exactly the URLs of the paths it contributes |
| `SiteFiles.ListedPathsAppend` | scripts/build-sw.js:23 | the listing follows entry order: listing two runs of entries is concatenating their listings |
| `SiteFiles.ListedPathsExactly` | scripts/build-sw.js:27-38 | a path is listed iff it names a file of the tree, its extension passes the whitelist, and no directory on its way is `node_modules`, `.git` or `.cache` |
| `SiteFiles.ListedPathsDistinct` | scripts/build-sw.js:20-43 | in a well-formed tree no path is listed twice |
| `SiteFiles.SiteUrlsDistinct` | scripts/build-sw.js:20-43 | assuming unique names free of `/` and `\`, the precache list has no duplicates |
| `SiteFiles.BackslashNameCollides` | scripts/build-sw.js:20-43 | without that assumption the list can repeat a URL: a top-level `<d>\<name>` and the file `<name>` of directory `<d>` both become `/<d>/<name>` |
| `Text.Trim` | docs/assets/js/analytics.js:84 | `trim` gives an infix of the input with only whitespace around it, and it neither starts nor ends with whitespace |
| `Text.TrimUnique` | docs/assets/js/analytics.js:84 | any such whitespace-bounded infix is the trim |
| `Text.TrimPadding` | docs/assets/js/analytics.js:84 | padding a value with whitespace does not change its trim |
| `Text.Utf16Length` | docs/assets/js/analytics.js:85-88 | `length` is the character count plus the number of characters outside the Basic Multilingual Plane; so it lies between the count and twice it, and equals the count iff there is no such character |
| `Text.ToRadix` | scripts/build-sw.js:14 | `toString(36)` is a numeral of base-36 digits without leading zeros |
| `Text.FromRadixToRadix` | scripts/build-sw.js:14 | reading back `toString(b)` gives the number |
| `Text.ToRadixFromRadix` | scripts/build-sw.js:14 | every numeral is the `toString(b)` of its value |
| `Text.ToRadixInjective` | scripts/build-sw.js:14 | different numbers have different numerals |
| `Text.Substring` | scripts/build-sw.js:15 | `substring(a, b)` holds the characters from `a` up to `b`, both clamped to the length |
| `Text.Substr` | docs/assets/js/analytics.js:169 | `substr(start, length)` holds exactly the characters from `start` up to `start + length`, both clamped to the string's length |
| `Text.SplitJoin` | scripts/build-sw.js:24 | splitting a joined path at the separator recovers its separator-free components |
| `Text.JoinInjective` | scripts/build-sw.js:24 | joining separator-free components is injective |
| `Analytics.InitializeAnalytics` | docs/assets/js/analytics.js:17-37 | nothing starts when `enabled` is false; otherwise each tracker starts iff its flag is set (search also needs the search box) |
| `Analytics.OnDomReady` | docs/assets/js/analytics.js:219-223 | on `DOMContentLoaded` the error listeners always start, the performance report iff timing data exists, and the rest as `initializeAnalytics` decides |
| `Analytics.DefaultStartsEverything` | docs/assets/js/analytics.js:7-37 | the shipped configuration starts page views, code copies, scroll depth, and search when the box exists |
| `Analytics.DisabledStillReportsErrors` | docs/assets/js/analytics.js:18-223 | with `enabled` false, the error listeners and the performance report still start |
| `Analytics.TrackScroll` | docs/assets/js/analytics.js:105-124 | the tracked set grows by exactly the logged depths; each logged depth is a milestone reached and not yet tracked; every reached milestone ends up tracked |
| `Analytics.TrackScrollDistinct` | docs/assets/js/analytics.js:110-113 | no milestone is logged twice in one call |
| `Analytics.TrackScrollAscending` | docs/assets/js/analytics.js:102-123 | milestones are logged in ascending order |
| `Analytics.TrackScrollAllFresh` | docs/assets/js/analytics.js:110-123 | when every milestone is reached and fresh, all are logged in list order |
| `Analytics.ScrollRun` | docs/assets/js/analytics.js:126-130 | over a run of scroll positions the tracked set only grows, only by milestones, and every logged value is a milestone |
| `Analytics.ScrollMilestonesOnce` | docs/assets/js/analytics.js:101-130 | over a whole visit no milestone is logged twice; each logged value is a milestone some scroll reached that was not tracked before; every milestone any scroll reached ends up tracked; the tracked set grows by exactly the log |
| `Analytics.ScrollToBottom` | docs/assets/js/analytics.js:102-123 | a first scroll to 100% logs 25, 50, 75, 90 and 100 in that order |
| `Analytics.ScrollBackLogsNothing` | docs/assets/js/analytics.js:110-113 | once the reached milestones are tracked, scrolling logs nothing |
| `Analytics.SearchQueryEvent` | docs/assets/js/analytics.js:84-94 | a query is logged iff its trimmed UTF-16 length exceeds 2; the event carries the trimmed query and that length |
| `Analytics.SearchIgnoresPadding` | docs/assets/js/analytics.js:84 | surrounding whitespace does not change what is logged |
| `Analytics.OneCharacterNotLogged` | docs/assets/js/analytics.js:84-85 | a query of at most one character after trimming is never logged |
| `Analytics.AstralPairLogged` | docs/assets/js/analytics.js:84-88 | two emoji count as four units and are logged |
| `Analytics.WordRun` | docs/assets/js/analytics.js:61 | `\w+` is greedy: the run is all word characters and stops at a non-word character |
| `Analytics.FindLanguage` | docs/assets/js/analytics.js:61 | the search finds nothing iff `language-` followed by a word character occurs at no later position; otherwise it returns the capture at the leftmost such position |
| `Analytics.CopyLanguage` | docs/assets/js/analytics.js:61-64 | the language is `unknown` when the class has no match, and otherwise the capture of the leftmost match |
| `Analytics.CaptureIsWord` | docs/assets/js/analytics.js:61 | the capture is a non-empty run of word characters |
| `Analytics.PythonBlock` | docs/assets/js/analytics.js:61-64 | `language-python highlight` gives `python` |
| `Analytics.EmptyLanguageSkipped` | docs/assets/js/analytics.js:61-64 | `language- language-go` gives `go`: an empty word does not match |
| `Analytics.OnClick` | docs/assets/js/analytics.js:58-72 | a click logs nothing iff the target lacks `copy-code-btn`; it throws iff the button has no code block; otherwise it logs the block's language and length |
| `Analytics.NewSessionId` | docs/assets/js/analytics.js:169 | a fresh id starts with `session_` |
| `Analytics.GetSessionId` | docs/assets/js/analytics.js:166-173 | the id is stored afterwards and is never empty; a stored non-empty id is returned as is; a missing or empty one is replaced by a fresh id |
| `Analytics.SessionIdReused` | docs/assets/js/analytics.js:166-173 | a second call returns the id the first one stored |
| `Analytics.SessionIdsDifferInTime` | docs/assets/js/analytics.js:169 | ids created at different milliseconds differ |
| `Analytics.LogEvent` | docs/assets/js/analytics.js:134-163 | `gtag` is called iff it exists; a beacon is sent iff `fetch` exists, carrying the session id, and only then is the session slot touched |
| `Analytics.BeaconsShareSession` | docs/assets/js/analytics.js:148-173 | every beacon of a page visit carries the id created by the first one, and that id is what the session slot holds afterwards |
| `Analytics.NoFetchNoSession` | docs/assets/js/analytics.js:148-173 | without `fetch` no beacon is sent and the session slot ends as it began |

## Left out

- Logging: every `console.log`/`console.error` line and the `debug` flag, since they have no effect on the model's state.
- The `sync`, `push` and `notificationclick` handlers (site/sw.js:190-208), which are outside the offline-caching core.
- `clients.claim()` (site/sw.js:134): there are no client pages in the model.
- Asynchrony: the fetch handler's `cache.put` is not awaited in the source; it is modelled as done before the next event. `addAll` fetching in parallel is modelled as one batch.
- `SiteFiles.SiteUrlsDistinct`: assumes file and directory names contain neither `/` nor `\`, and proves the URL strings distinct, not the requests they parse to (see `ServiceWorker.Install` below). That holds on Windows but not on POSIX, where a file named `a\b.html` and the file `b.html` of directory `a` both become `/a/b.html` (`SiteFiles.BackslashNameCollides`); the worker built from such a site then never precaches (`Build.BackslashSiteNeverPrecaches`) and, once activated, serves from an empty cache (`ServiceWorker.FailedInstallThenActivate`).
- `ServiceWorker.Install`: a precache key is the origin followed by the path string, and `addAll`'s refusal of repeated requests is modelled as a repeated path string. The browser first parses each path as a URL, which percent-encodes spaces and non-ASCII characters and removes dot segments, and it compares requests with their fragments excluded. So `/a b.html` and `/a%20b.html`, or `/p#1.html` and `/p#2.html`, are one request to the browser, which refuses the batch, while the model installs. URL parsing is not modelled; names free of `/` and `\` can still produce such lists.
- `CacheStorage.Match`: matches on the URL string only. Query-string options, fragments and `Vary` headers are not modelled, and the request method is irrelevant because only GET requests reach it.
- The `!response` check of site/sw.js:163 never fires, since a resolved `fetch` always yields a response. Only the status and type tests are modelled.
- Response bodies and `clone()`: a response is a value, so a clone is the response itself.
- `ServiceWorker.PrecacheListFacts`: states the length and the offline page, not a property of each of the 93 entries; in particular that they are pairwise distinct, which the shipped worker needs in order to precache, is not proved.
- The generated worker's source text. `Build.GenerateServiceWorker` models what varies between builds: the version, the cache name, the list and the two announced counts. The handlers it prints are identical to site/sw.js and are the `ServiceWorker` module. The `Generated on` date of the trailer comment is not modelled.
- `JSON.stringify` layout and key order: a manifest object is a map, and JSON numbers are integers.
- The file system:
  - The site tree is an immutable value read before any write.
  - The site manifest is given separately from the tree.
  - `statSync` entries other than files and directories are not modelled, nor are read errors other than an unparsable manifest.
- `Text.ToLower`: lower-cases ASCII letters only, unlike JavaScript's full Unicode `toLowerCase`. The whitelist is ASCII, so the test's outcome differs only for a non-ASCII character that lower-cases to ASCII (for example the Kelvin sign), which the model treats as not matching.
- The clock and `Math.random`: their values are parameters. `random` is the text `toString(36)` produced, so its shape is not constrained further.
- Timers: the 500 ms search debounce and the 100 ms scroll debounce. Each modelled call is the callback that finally runs.
- Floating point: `Analytics.TrackScroll` takes `Math.round((scrollTop / docHeight) * 100)` as an integer input, so `NaN` for a page that does not scroll is not modelled.
- The contents of the page-view, performance and error events, and the `trackPerformance`/`trackErrors` internals, beyond whether they start.
- The `window.Analytics` export, the body and headers of the beacon request, and the swallowed `fetch` rejection.
- `site/assets/js/custom.js` and `scripts/copy-files.js` are not part of this model.

=== FILE: analytics.dfy ===
/**
 * The bookkeeping of `docs/assets/js/analytics.js`: which trackers start,
 * the scroll-depth milestones, the search-query filter, the code-copy
 * language, the session id and the two sinks of `logEvent`.  Browser
 * objects, the clock and the random number generator are passed in as
 * values; the scroll position arrives as the already rounded percent.
 */
module Analytics {
  import opened Wrappers
  import opened Text

  // ---------------------------------------------------------------------
  // Configuration and start-up
  // ---------------------------------------------------------------------

  /** `ANALYTICS_CONFIG` */
  datatype Config = Config(
    enabled: bool,
    debug: bool,
    trackPageViews: bool,
    trackCodeCopies: bool,
    trackSearchQueries: bool,
    trackScrollDepth: bool)

  const DefaultConfig: Config := Config(true, false, true, true, true, true)

  /** What start-up leaves behind: the page-view event sent, and the
      listeners installed. */
  datatype Tracker =
    | PageView
    | CodeCopyListener
    | SearchListener
    | ScrollListener
    | PerformanceReport
    | ErrorListeners

  /** `initializeAnalytics()`: nothing at all unless `enabled`; then one
      tracker per switched-on flag, the search listener only when the page
      has a search input. */
  function InitializeAnalytics(config: Config, hasSearchInput: bool): (r: set<Tracker>)
    ensures !config.enabled ==> r == {}
    ensures config.enabled ==> (
      && (PageView in r <==> config.trackPageViews)
      && (CodeCopyListener in r <==> config.trackCodeCopies)
      && (SearchListener in r <==> config.trackSearchQueries && hasSearchInput)
      && (ScrollListener in r <==> config.trackScrollDepth))
    ensures PerformanceReport !in r && ErrorListeners !in r
  {
    if !config.enabled then {}
    else
      (if config.trackPageViews then {PageView} else {})
      + (if config.trackCodeCopies then {CodeCopyListener} else {})
      + (if config.trackSearchQueries && hasSearchInput then {SearchListener} else {})
      + (if config.trackScrollDepth then {ScrollListener} else {})
  }

  /** The `DOMContentLoaded` handler: `initializeAnalytics()`, then
      `trackPerformance()` (which reports only when the timing API exists)
      and `trackErrors()`, the last two regardless of `enabled`. */
  function OnDomReady(config: Config, hasSearchInput: bool, hasTiming: bool): (r: set<Tracker>)
    ensures r - {PerformanceReport, ErrorListeners} == InitializeAnalytics(config, hasSearchInput)
    ensures ErrorListeners in r
    ensures PerformanceReport in r <==> hasTiming
  {
    InitializeAnalytics(config, hasSearchInput)
      + (if hasTiming then {PerformanceReport} else {})
      + {ErrorListeners}
  }

  /** With the default configuration every tracker that can start does. */
  lemma DefaultStartsEverything(hasSearchInput: bool)
    ensures InitializeAnalytics(DefaultConfig, hasSearchInput)
      == {PageView, CodeCopyListener, ScrollListener} + (if hasSearchInput then {SearchListener} else {})
  {
  }

  /** The `enabled` switch gates only `initializeAnalytics`: with it off,
      the error listeners are still installed on every page. */
  lemma DisabledStillReportsErrors(config: Config, hasSearchInput: bool, hasTiming: bool)
    requires !config.enabled
    ensures OnDomReady(config, hasSearchInput, hasTiming) == {ErrorListeners} + (if hasTiming then {PerformanceReport} else {})
  {
  }

  // ---------------------------------------------------------------------
  // trackScrollDepth
  // ---------------------------------------------------------------------

  /** `depths` */
  const Depths: seq<int> := [25, 50, 75, 90, 100]

  predicate Ascending(s: seq<int>) {
    forall i, j | 0 <= i < j < |s| :: s[i] < s[j]
  }

  /** The milestones reached so far, and those logged by one step. */
  datatype ScrollStep = ScrollStep(tracked: set<int>, logged: seq<int>)

  /** `trackScroll()` for a scroll position of `percent`: the `forEach`
      over `depths`, logging and recording each milestone reached that is
      not yet recorded. */
  function TrackScroll(depths: seq<int>, tracked: set<int>, percent: int): (r: ScrollStep)
    ensures forall x :: x in r.tracked <==> x in tracked || x in r.logged
    ensures forall x | x in r.logged :: x in depths && x <= percent && x !in tracked
    ensures forall x | x in depths && x <= percent :: x in r.tracked
    decreases |depths|
  {
    if |depths| == 0 then ScrollStep(tracked, [])
    else
      var d := depths[0];
      var rest := TrackScroll(depths[1..], if percent >= d && d !in tracked then tracked + {d} else tracked, percent);
      assert forall x | x in depths :: x == d || x in depths[1..];
      if percent >= d && d !in tracked then ScrollStep(rest.tracked, [d] + rest.logged)
      else rest
  }

  /** One step logs each milestone at most once, even if the list repeats
      one. */
  lemma {:induction false} TrackScrollDistinct(depths: seq<int>, tracked: set<int>, percent: int)
    ensures Distinct(TrackScroll(depths, tracked, percent).logged)
    decreases |depths|
  {
    if |depths| > 0 {
      var d := depths[0];
      if percent >= d && d !in tracked {
        TrackScrollDistinct(depths[1..], tracked + {d}, percent);
        var rest := TrackScroll(depths[1..], tracked + {d}, percent);
        DistinctAppend([d], rest.logged);
      } else {
        TrackScrollDistinct(depths[1..], tracked, percent);
      }
    }
  }

  lemma AscendingTail(s: seq<int>)
    requires Ascending(s) && |s| > 0
    ensures Ascending(s[1..])
    ensures forall x | x in s[1..] :: s[0] < x
  {
  }

  /** One step logs the milestones in the order of the list: ascending for
      `depths`. */
  lemma {:induction false} TrackScrollAscending(depths: seq<int>, tracked: set<int>, percent: int)
    requires Ascending(depths)
    ensures Ascending(TrackScroll(depths, tracked, percent).logged)
    decreases |depths|
  {
    if |depths| > 0 {
      var d := depths[0];
      var t := if percent >= d && d !in tracked then tracked + {d} else tracked;
      var rest := TrackScroll(depths[1..], t, percent);
      AscendingTail(depths);
      TrackScrollAscending(depths[1..], t, percent);
      if percent >= d && d !in tracked {
        AscendingCons(d, rest.logged);
      }
    }
  }

  /** A value below every element of an ascending sequence extends it. */
  lemma AscendingCons(d: int, s: seq<int>)
    requires Ascending(s)
    requires forall x | x in s :: d < x
    ensures Ascending([d] + s)
  {
    var r := [d] + s;
    forall i, j | 0 <= i < j < |r|
      ensures r[i] < r[j]
    {
      assert r[j] == s[j - 1] && s[j - 1] in s;
      if i > 0 {
        assert r[i] == s[i - 1];
      }
    }
  }

  /** The `scroll` listener over a run of (debounced) scroll positions. */
  function ScrollRun(tracked: set<int>, percents: seq<int>): (r: ScrollStep)
    ensures tracked <= r.tracked
    ensures forall x | x in r.logged :: x in Depths
    ensures forall x | x in r.tracked :: x in tracked || x in Depths
    decreases |percents|
  {
    if |percents| == 0 then ScrollStep(tracked, [])
    else
      var first := TrackScroll(Depths, tracked, percents[0]);
      var rest := ScrollRun(first.tracked, percents[1..]);
      ScrollStep(rest.tracked, first.logged + rest.logged)
  }


  /** Over a whole page visit each milestone is logged at most once, only
      once some position has reached it, and every milestone some position
      reached is recorded. */
  lemma {:induction false} ScrollMilestonesOnce(tracked: set<int>, percents: seq<int>)
    ensures var r := ScrollRun(tracked, percents);
      && (forall x :: x in r.tracked <==> x in tracked || x in r.logged)
      && Distinct(r.logged)
      && (forall i | 0 <= i < |r.logged| ::
            r.logged[i] in Depths && r.logged[i] !in tracked
            && exists k | 0 <= k < |percents| :: r.logged[i] <= percents[k])
      && (forall d, k | d in Depths && 0 <= k < |percents| && d <= percents[k] :: d in r.tracked)
    decreases |percents|
  {
    if |percents| > 0 {
      var first := TrackScroll(Depths, tracked, percents[0]);
      ScrollMilestonesOnce(first.tracked, percents[1..]);
      TrackScrollDistinct(Depths, tracked, percents[0]);
      var rest := ScrollRun(first.tracked, percents[1..]);
      var r := ScrollRun(tracked, percents);
      assert r.logged == first.logged + rest.logged;
      DistinctAppend(first.logged, rest.logged);
      forall i | 0 <= i < |r.logged|
        ensures r.logged[i] in Depths && r.logged[i] !in tracked
        ensures exists k | 0 <= k < |percents| :: r.logged[i] <= percents[k]
      {
        if i < |first.logged| {
          assert r.logged[i] == first.logged[i] && first.logged[i] in first.logged;
          assert r.logged[i] <= percents[0];
        } else {
          assert r.logged[i] == rest.logged[i - |first.logged|];
          var k :| 0 <= k < |percents[1..]| && rest.logged[i - |first.logged|] <= percents[1..][k];
          assert r.logged[i] <= percents[k + 1];
        }
      }
      forall d, k | d in Depths && 0 <= k < |percents| && d <= percents[k]
        ensures d in r.tracked
      {
        if k == 0 {
          assert d in first.tracked;
        } else {
          assert percents[1..][k - 1] == percents[k];
        }
      }
    }
  }

  /** When every milestone of a repetition-free list is reached and none
      is recorded yet, the step logs the whole list in its order. */
  lemma {:induction false} TrackScrollAllFresh(depths: seq<int>, tracked: set<int>, percent: int)
    requires Distinct(depths)
    requires forall i | 0 <= i < |depths| :: depths[i] <= percent && depths[i] !in tracked
    ensures TrackScroll(depths, tracked, percent).logged == depths
    decreases |depths|
  {
    if |depths| > 0 {
      var d, tail := depths[0], depths[1..];
      forall i | 0 <= i < |tail|
        ensures tail[i] <= percent && tail[i] !in tracked + {d}
      {
        assert tail[i] == depths[i + 1];
      }
      forall i, j | 0 <= i < j < |tail|
        ensures tail[i] != tail[j]
      {
        assert tail[i] == depths[i + 1] && tail[j] == depths[j + 1];
      }
      TrackScrollAllFresh(tail, tracked + {d}, percent);
      assert depths == [d] + tail;
    }
  }

  /** Scrolling straight to the bottom logs all five milestones at once,
      smallest first. */
  lemma ScrollToBottom()
    ensures TrackScroll(Depths, {}, 100).logged == Depths
  {
    TrackScrollAllFresh(Depths, {}, 100);
  }

  /** A later, shallower position logs nothing new. */
  lemma ScrollBackLogsNothing(tracked: set<int>, percent: int)
    requires forall i | 0 <= i < |Depths| && Depths[i] <= percent :: Depths[i] in tracked
    ensures TrackScroll(Depths, tracked, percent).logged == []
  {
    var r := TrackScroll(Depths, tracked, percent);
  }

  // ---------------------------------------------------------------------
  // trackSearchQueries
  // ---------------------------------------------------------------------

  /** The `search_query` event data: the trimmed query and its `length`. */
  datatype SearchEvent = SearchEvent(query: string, length: nat)

  /** The debounced `input` handler on the search box's `value`: log the
      trimmed query when its JavaScript length (UTF-16 code units) exceeds 2. */
  function SearchQueryEvent(value: string): (r: Option<SearchEvent>)
    ensures r.Some? <==> Utf16Length(Trim(value)) > 2
    ensures r.Some? ==> (
      && r.value.query == Trim(value)
      && r.value.length == Utf16Length(r.value.query)
      && |r.value.query| >= 2
      && !IsJsSpace(r.value.query[0]) && !IsJsSpace(r.value.query[|r.value.query| - 1]))
  {
    var query := Trim(value);
    if Utf16Length(query) > 2 then Some(SearchEvent(query, Utf16Length(query))) else None
  }

  /** Surrounding whitespace does not change what is logged. */
  lemma SearchIgnoresPadding(pre: string, value: string, post: string)
    requires AllSpace(pre) && AllSpace(post)
    ensures SearchQueryEvent(pre + value + post) == SearchQueryEvent(value)
  {
    TrimPadding(pre, value, post);
  }

  /** A trimmed query of at most one character is never logged. */
  lemma OneCharacterNotLogged(value: string)
    requires |Trim(value)| <= 1
    ensures SearchQueryEvent(value) == None
  {
  }

  /** Two characters outside the Basic Multilingual Plane are four code
      units, so such a two-character query is logged with length 4. */
  lemma AstralPairLogged(a: char, b: char)
    requires a as int > 0xFFFF && b as int > 0xFFFF
    ensures SearchQueryEvent([a, b]) == Some(SearchEvent([a, b], 4))
  {
    var q := [a, b];
    AstralPairTrimmed(a, b);
    assert Astral(q) == {0, 1};
  }

  lemma AstralPairTrimmed(a: char, b: char)
    requires a as int > 0xFFFF && b as int > 0xFFFF
    ensures Trim([a, b]) == [a, b]
  {
    var q := [a, b];
    TrimUnique(q, 0, 2);
    assert q[0..2] == q;
  }

  // ---------------------------------------------------------------------
  // trackCodeCopies
  // ---------------------------------------------------------------------

  const LanguagePrefix: string := "language-"

  /** Whether `/language-(\w+)/` matches at position `k`. */
  predicate MatchesAt(cls: string, k: nat) {
    k + |LanguagePrefix| < |cls| && cls[k..k + |LanguagePrefix|] == LanguagePrefix
    && IsWordChar(cls[k + |LanguagePrefix|])
  }

  /** Length of the run of word characters that starts `s`. */
  function WordRun(s: string): (n: nat)
    ensures n <= |s|
    ensures forall i | 0 <= i < n :: IsWordChar(s[i])
    ensures n < |s| ==> !IsWordChar(s[n])
  {
    if |s| == 0 || !IsWordChar(s[0]) then 0 else 1 + WordRun(s[1..])
  }

  /** The run of word characters ends where the word does. */
  lemma {:induction false} WordRunOfWord(w: string, rest: string)
    requires forall i | 0 <= i < |w| :: IsWordChar(w[i])
    requires |rest| > 0 ==> !IsWordChar(rest[0])
    ensures WordRun(w + rest) == |w|
    decreases |w|
  {
    if |w| > 0 {
      assert (w + rest)[1..] == w[1..] + rest;
      WordRunOfWord(w[1..], rest);
    } else {
      assert w + rest == rest;
    }
  }

  /** The greedy `(\w+)` group of a match at `k`. */
  function Capture(cls: string, k: nat): string
    requires k + |LanguagePrefix| <= |cls|
  {
    var t := cls[k + |LanguagePrefix|..];
    t[..WordRun(t)]
  }

  /** The leftmost match at or after `k`, as the regular-expression engine
      finds it, with its group. */
  function FindLanguage(cls: string, k: nat): (r: Option<string>)
    ensures r.None? <==> forall m | k <= m < |cls| :: !MatchesAt(cls, m)
    ensures r.Some? ==> exists m | k <= m < |cls| ::
      && MatchesAt(cls, m)
      && (forall m' | k <= m' < m :: !MatchesAt(cls, m'))
      && r.value == Capture(cls, m)
    decreases |cls| - k
  {
    if k + |LanguagePrefix| >= |cls| then None
    else if MatchesAt(cls, k) then Some(Capture(cls, k))
    else FindLanguage(cls, k + 1)
  }

  /** `language ? language[1] : 'unknown'` */
  function CopyLanguage(cls: string): (r: string)
    ensures (forall m | 0 <= m < |cls| :: !MatchesAt(cls, m)) ==> r == "unknown"
    ensures forall m | 0 <= m < |cls| && MatchesAt(cls, m) && (forall m' | 0 <= m' < m :: !MatchesAt(cls, m')) ::
      r == Capture(cls, m)
  {
    match FindLanguage(cls, 0)
    case None => "unknown"
    case Some(w) => w
  }

  /** A match's group is a non-empty run of word characters, and it is the
      whole run. */
  lemma CaptureIsWord(cls: string, m: nat)
    requires MatchesAt(cls, m)
    ensures var w := Capture(cls, m);
      && |w| > 0
      && (forall i | 0 <= i < |w| :: IsWordChar(w[i]))
      && (m + |LanguagePrefix| + |w| < |cls| ==> !IsWordChar(cls[m + |LanguagePrefix| + |w|]))
  {
  }

  /** The class the highlighter writes. */
  lemma PythonBlock()
    ensures CopyLanguage("language-python highlight") == "python"
  {
    var cls := "language-python highlight";
    assert cls[..9] == LanguagePrefix;
    assert MatchesAt(cls, 0);
    var t := cls[|LanguagePrefix|..];
    assert t == "python" + " highlight";
    WordRunOfWord("python", " highlight");
  }

  /** A `language-` with no word character after it is skipped in favour of
      a later one. */
  lemma EmptyLanguageSkipped()
    ensures CopyLanguage("language- language-go") == "go"
  {
    var cls := "language- language-go";
    assert cls[9] == ' ';
    forall m | 1 <= m < 10
      ensures !MatchesAt(cls, m)
    {
      assert cls[m..m + 9][0] == cls[m] != 'l';
    }
    assert cls[10..19] == LanguagePrefix;
    assert MatchesAt(cls, 10);
    assert cls[19..] == "go" + "";
    WordRunOfWord("go", "");
  }

  /** The code block next to a clicked element, as far as the handler
      reads it. */
  datatype CodeBlock = CodeBlock(className: string, text: string)

  /** A click target: its classes and the `code` element its parent holds,
      if any. */
  datatype ClickTarget = ClickTarget(classes: set<string>, code: Option<CodeBlock>)

  /** What one click produces: nothing, a `code_copy` event, or the
      `TypeError` of reading `className` of `null`. */
  datatype ClickOutcome = NoEvent | CodeCopy(language: string, codeLength: nat) | TypeError

  /** The `click` listener of `trackCodeCopies`. */
  function OnClick(target: ClickTarget): (r: ClickOutcome)
    ensures r.NoEvent? <==> "copy-code-btn" !in target.classes
    ensures r.TypeError? <==> "copy-code-btn" in target.classes && target.code.None?
    ensures r.CodeCopy? ==> (
      && r.language == CopyLanguage(target.code.value.className)
      && r.codeLength == Utf16Length(target.code.value.text))
  {
    if "copy-code-btn" !in target.classes then NoEvent
    else match target.code
      case None => TypeError
      case Some(block) => CodeCopy(CopyLanguage(block.className), Utf16Length(block.text))
  }

  // ---------------------------------------------------------------------
  // getSessionId and logEvent
  // ---------------------------------------------------------------------

  const SessionPrefix: string := "session_"

  /** A fresh id: `'session_' + Date.now() + '_' +
      Math.random().toString(36).substr(2, 9)`. */
  function NewSessionId(now: nat, random: string): (id: string)
    ensures |id| > |SessionPrefix| && id[..|SessionPrefix|] == SessionPrefix
  {
    SessionPrefix + ToRadix(now, 10) + "_" + Substr(random, 2, 9)
  }

  /** The id returned and the `analytics_session_id` entry of
      `sessionStorage` afterwards. */
  datatype SessionStep = SessionStep(id: string, storage: Option<string>)

  /** `getSessionId()`: a missing or empty stored id is replaced by a fresh
      one and stored; any other stored id is returned as it is. */
  function GetSessionId(storage: Option<string>, now: nat, random: string): (r: SessionStep)
    ensures r.storage == Some(r.id) && r.id != ""
    ensures storage.Some? && storage.value != "" ==> r.id == storage.value
    ensures storage.None? || storage == Some("") ==> r.id == NewSessionId(now, random)
  {
    match storage
    case Some(id) =>
      if id != "" then SessionStep(id, storage)
      else var id := NewSessionId(now, random); SessionStep(id, Some(id))
    case None =>
      var id := NewSessionId(now, random);
      SessionStep(id, Some(id))
  }

  /** The second call returns the first call's id, whatever the clock and
      random number say. */
  lemma SessionIdReused(storage: Option<string>, now1: nat, random1: string, now2: nat, random2: string)
    ensures var first := GetSessionId(storage, now1, random1);
      GetSessionId(first.storage, now2, random2) == first
  {
  }

  /** Ids made at different milliseconds differ. */
  lemma SessionIdsDifferInTime(t1: nat, r1: string, t2: nat, r2: string)
    requires t1 != t2
    ensures NewSessionId(t1, r1) != NewSessionId(t2, r2)
  {
    var s1, s2 := ToRadix(t1, 10), ToRadix(t2, 10);
    var x1, x2 := Substr(r1, 2, 9), Substr(r2, 2, 9);
    assert NewSessionId(t1, r1) == SessionPrefix + (s1 + ['_'] + x1);
    assert NewSessionId(t2, r2) == SessionPrefix + (s2 + ['_'] + x2);
    if s1 + ['_'] + x1 == s2 + ['_'] + x2 {
      DecimalHasNoUnderscore(s1);
      DecimalHasNoUnderscore(s2);
      PrefixBeforeSeparator(s1, x1, s2, x2, '_');
      ToRadixInjective(t1, t2, 10);
    }
  }

  lemma DecimalHasNoUnderscore(s: string)
    requires forall i | 0 <= i < |s| :: IsDigitOf(s[i], 10)
    ensures Free(s, '_')
  {
  }

  /** Which of the two sinks exist: `gtag` and `fetch`. */
  datatype Sinks = Sinks(hasGtag: bool, hasFetch: bool)

  /** One `logEvent`: whether `gtag` is called, the session id of the
      `/api/analytics` beacon if one is sent, and `sessionStorage` after. */
  datatype LogStep = LogStep(gtag: bool, beacon: Option<string>, storage: Option<string>)

  /** `logEvent(name, data)`: the session id is looked up (and possibly
      created) only when a beacon is sent. */
  function LogEvent(sinks: Sinks, storage: Option<string>, now: nat, random: string): (r: LogStep)
    ensures r.gtag == sinks.hasGtag
    ensures r.beacon.Some? <==> sinks.hasFetch
    ensures !sinks.hasFetch ==> r.storage == storage
    ensures sinks.hasFetch ==> r.storage == r.beacon && r.beacon == Some(GetSessionId(storage, now, random).id)
  {
    if sinks.hasFetch then
      var s := GetSessionId(storage, now, random);
      LogStep(sinks.hasGtag, Some(s.id), s.storage)
    else LogStep(sinks.hasGtag, None, storage)
  }

  /** The clock and random readings at which successive events are logged. */
  datatype Moment = Moment(now: nat, random: string)

  /** The session ids of the beacons sent for a run of events. */
  function Beacons(sinks: Sinks, storage: Option<string>, moments: seq<Moment>): seq<string>
    decreases |moments|
  {
    if |moments| == 0 then []
    else
      var step := LogEvent(sinks, storage, moments[0].now, moments[0].random);
      (if step.beacon.Some? then [step.beacon.value] else []) + Beacons(sinks, step.storage, moments[1..])
  }

  /** The session storage slot after a run of events. */
  function StorageAfter(sinks: Sinks, storage: Option<string>, moments: seq<Moment>): Option<string>
    decreases |moments|
  {
    if |moments| == 0 then storage
    else StorageAfter(sinks, LogEvent(sinks, storage, moments[0].now, moments[0].random).storage, moments[1..])
  }

  /** Every beacon of a page session carries the same session id: the one
      stored before, or else the one made for the first event. */
  lemma {:induction false} BeaconsShareSession(sinks: Sinks, storage: Option<string>, moments: seq<Moment>)
    requires sinks.hasFetch && |moments| > 0
    ensures var id := GetSessionId(storage, moments[0].now, moments[0].random).id;
      var b := Beacons(sinks, storage, moments);
      |b| == |moments| && forall i | 0 <= i < |b| :: b[i] == id
    ensures StorageAfter(sinks, storage, moments) == Some(GetSessionId(storage, moments[0].now, moments[0].random).id)
    decreases |moments|
  {
    var first := GetSessionId(storage, moments[0].now, moments[0].random);
    var b := Beacons(sinks, storage, moments);
    var rest := Beacons(sinks, first.storage, moments[1..]);
    assert b == [first.id] + rest;
    if |moments| > 1 {
      BeaconsShareSession(sinks, first.storage, moments[1..]);
      assert GetSessionId(first.storage, moments[1].now, moments[1].random).id == first.id;
    }
  }

  /** Without `fetch` no beacon is sent and the session storage is never
      touched: no session id is created. */
  lemma {:induction false} NoFetchNoSession(sinks: Sinks, storage: Option<string>, moments: seq<Moment>)
    requires !sinks.hasFetch
    ensures Beacons(sinks, storage, moments) == []
    ensures StorageAfter(sinks, storage, moments) == storage
    decreases |moments|
  {
    if |moments| > 0 {
      NoFetchNoSession(sinks, storage, moments[1..]);
    }
  }
}

=== FILE: build.dfy ===
/**
 * The build script `scripts/build-sw.js`: it stamps a fresh version into a
 * service worker generated from the site's file listing, and into both
 * `manifest.json` files.  The clock, the random number generator and the
 * file system are passed in as values.
 */
module Build {
  import opened Wrappers
  import opened Text
  import opened CacheStorage
  import opened ServiceWorker
  import opened SiteFiles

  // ---------------------------------------------------------------------
  // generateVersion
  // ---------------------------------------------------------------------

  /** `'v' + Date.now().toString(36) + '-' + random.substring(2, 8)`, where
      `now` is the clock in milliseconds and `random` is the text of
      `Math.random().toString(36)` (of the form `0.` followed by digits). */
  function GenerateVersion(now: nat, random: string): (v: string)
    ensures |v| > 0 && v[0] == 'v'
    ensures ParseVersion(v) == Some(VersionParts(now, Substring(random, 2, 8)))
  {
    var stamp := ToRadix(now, 36);
    var tail := Substring(random, 2, 8);
    var v := "v" + stamp + "-" + tail;
    VersionRoundTrip(stamp, tail);
    FromRadixToRadix(now, 36);
    v
  }

  /** The two halves of a version: the build time and the random part. */
  datatype VersionParts = VersionParts(time: nat, random: string)

  /** Reads a version back: `v`, a base-36 numeral, `-`, at most six
      characters. */
  function ParseVersion(v: string): (r: Option<VersionParts>)
    ensures r.Some? ==> |r.value.random| <= 6
  {
    if |v| == 0 || v[0] != 'v' then None
    else
      var dash := FirstIndexOf(v[1..], '-');
      if dash < 0 then None
      else
        var stamp, tail := v[1..][..dash], v[1..][dash + 1..];
        if IsNumeral(stamp, 36) && |tail| <= 6 then Some(VersionParts(FromRadix(stamp, 36), tail))
        else None
  }

  lemma NumeralHasNoDash(stamp: string)
    requires IsNumeral(stamp, 36)
    ensures Free(stamp, '-')
  {
  }

  lemma VersionRoundTrip(stamp: string, tail: string)
    requires IsNumeral(stamp, 36) && |tail| <= 6
    ensures ParseVersion("v" + stamp + "-" + tail) == Some(VersionParts(FromRadix(stamp, 36), tail))
  {
    var v := "v" + stamp + "-" + tail;
    assert v[1..] == stamp + ['-'] + tail;
    NumeralHasNoDash(stamp);
    FirstIndexAfterFree(stamp, '-', tail);
    assert v[1..][..|stamp|] == stamp;
    assert v[1..][|stamp| + 1..] == tail;
  }

  /** Builds at different times get different versions, whatever the
      random part. */
  lemma VersionsDifferInTime(t1: nat, r1: string, t2: nat, r2: string)
    requires t1 != t2
    ensures GenerateVersion(t1, r1) != GenerateVersion(t2, r2)
  {
  }

  lemma ShippedStampNumeral()
    ensures IsNumeral("mgestecm", 36)
  {
    var stamp := "mgestecm";
    forall i | 0 <= i < |stamp|
      ensures IsDigitOf(stamp[i], 36)
    {
    }
  }

  /** The version in the shipped worker is one this function produces. */
  lemma ShippedVersionGenerated()
    ensures GenerateVersion(FromRadix("mgestecm", 36), "0.yd5c73") == Version
  {
    var stamp := "mgestecm";
    ShippedStampNumeral();
    ToRadixFromRadix(stamp, 36);
    assert Substring("0.yd5c73", 2, 8) == "0.yd5c73"[2..8] == "yd5c73";
    assert "v" + stamp + "-" + "yd5c73" == Version;
  }

  // ---------------------------------------------------------------------
  // generateServiceWorker
  // ---------------------------------------------------------------------

  /** The parts of the generated worker text that vary between builds: the
      worker configuration, the version in the log lines and trailer, and the
      two resource counts (install log line and trailer). */
  datatype WorkerScript = WorkerScript(
    worker: Worker,
    version: string,
    cachingCount: nat,
    trailerCount: nat)

  const CachePrefix: string := "tech-guide-"

  /** The template of `generateServiceWorker`. */
  function GenerateServiceWorker(version: string, urls: seq<string>): (r: WorkerScript)
    ensures StartsWith(r.worker.cacheName, CachePrefix)
    ensures r.worker.cacheName[|CachePrefix|..] == r.version == version
    ensures r.worker.precache == urls
    ensures r.cachingCount == r.trailerCount == |r.worker.precache|
  {
    WorkerScript(Worker(CachePrefix + version, urls), version, |urls|, |urls|)
  }

  /** Distinct versions give distinct cache names. */
  lemma CacheNameInjective(v1: string, v2: string, urls1: seq<string>, urls2: seq<string>)
    requires GenerateServiceWorker(v1, urls1).worker.cacheName == GenerateServiceWorker(v2, urls2).worker.cacheName
    ensures v1 == v2
  {
  }

  /** The shipped worker is the template filled in with its version and its
      93 URLs. */
  lemma ShippedWorkerGenerated()
    ensures GenerateServiceWorker(Version, StaticCacheUrls).worker == Shipped
    ensures GenerateServiceWorker(Version, StaticCacheUrls).cachingCount == 93
  {
    assert CachePrefix + Version == CacheName;
    var urls := StaticCacheUrls;
    PrecacheListFacts();
    assert GenerateServiceWorker(Version, urls).worker == Worker(CacheName, urls);
  }

  /** Once the worker of a new build activates, the cache of any earlier
      build with a different version is gone. */
  lemma NewBuildRetiresOldCache(oldVersion: string, newVersion: string, urls: seq<string>, s: Store)
    requires oldVersion != newVersion
    ensures Get(Activate(GenerateServiceWorker(newVersion, urls).worker, s), CachePrefix + oldVersion) == None
  {
    assert (CachePrefix + oldVersion)[|CachePrefix|..] == oldVersion;
    assert (CachePrefix + newVersion)[|CachePrefix|..] == newVersion;
  }

  /** On a POSIX system, a site holding both `<d>\\<name>` and `<d>/<name>`
      gets a worker whose precache list repeats a URL, so `addAll` refuses
      it on every attempt: install only opens the cache and never reaches
      `skipWaiting`. */
  lemma BackslashSiteNeverPrecaches(d: string, stem: string, ext: string, version: string,
                                    s: Store, origin: string, net: string -> NetOutcome)
    requires |d| > 0 && Free(d, '\\') && d !in SkippedDirs
    requires |stem| > 0 && Free(stem, '\\') && Free(ext, '\\')
    requires |ext| > 1 && ext[0] == '.' && Free(ext[1..], '.') && ToLower(ext) in CacheableExtensions
    ensures var site := [File(d + "\\" + (stem + ext)), Dir(d, [File(stem + ext)])];
      var w := GenerateServiceWorker(version, SiteUrls(site)).worker;
      Install(w, s, origin, net) == InstallStep(Open(s, w.cacheName), false)
  {
    var site := [File(d + "\\" + (stem + ext)), Dir(d, [File(stem + ext)])];
    BackslashNameCollides(d, stem, ext);
    var w := GenerateServiceWorker(version, SiteUrls(site)).worker;
    DuplicatePrecacheRefused(w, s, origin, net, 0, 1);
  }

  // ---------------------------------------------------------------------
  // manifest.json
  // ---------------------------------------------------------------------

  /** A JSON value as `JSON.parse` returns it (numbers as integers). */
  datatype Json =
    | JNull
    | JBool(b: bool)
    | JNumber(n: int)
    | JString(s: string)
    | JArray(items: seq<Json>)
    | JObject(fields: map<string, Json>)

  /** The contents of a manifest file: parsed JSON, or text `JSON.parse`
      throws on. */
  datatype ManifestFile = Parsed(json: Json) | Unparsable

  /** `manifest.version = v; manifest.version_name = v;` on the parsed value.
      Assigning a property of `null` throws (`None`); on an object both
      fields are set; on any other value the assignment has no visible
      effect on what `JSON.stringify` writes back. */
  function StampVersion(j: Json, version: string): (r: Option<Json>)
    ensures r.None? <==> j.JNull?
    ensures j.JObject? ==> (
      && r.Some? && r.value.JObject?
      && r.value.fields.Keys == j.fields.Keys + {"version", "version_name"}
      && r.value.fields["version"] == JString(version)
      && r.value.fields["version_name"] == JString(version)
      && forall k | k in j.fields && k != "version" && k != "version_name" ::
           r.value.fields[k] == j.fields[k])
    ensures !j.JNull? && !j.JObject? ==> r == Some(j)
  {
    match j
    case JNull => None
    case JObject(fs) => Some(JObject(fs["version" := JString(version)]["version_name" := JString(version)]))
    case _ => Some(j)
  }

  /** The version a stamped object carries. */
  function StampedVersion(j: Json): Option<string> {
    if j.JObject? && "version" in j.fields && "version_name" in j.fields
       && j.fields["version"].JString? && j.fields["version_name"] == j.fields["version"]
    then Some(j.fields["version"].s)
    else None
  }

  /** Stamping twice with the same version is stamping once. */
  lemma StampIdempotent(j: Json, version: string)
    requires !j.JNull?
    ensures StampVersion(StampVersion(j, version).value, version) == StampVersion(j, version)
  {
    if j.JObject? {
      var once := StampVersion(j, version).value.fields;
      assert once["version" := JString(version)]["version_name" := JString(version)] == once;
    }
  }

  // ---------------------------------------------------------------------
  // buildServiceWorker
  // ---------------------------------------------------------------------

  /** What the script reads: the `site` tree (absent when the directory does
      not exist) and the two manifest files (absent when missing). */
  datatype FileSystem = FileSystem(
    site: Option<seq<Entry>>,
    siteManifest: Option<ManifestFile>,
    docsManifest: Option<ManifestFile>)

  datatype Target = SiteWorker | SiteManifest | DocsManifest

  /** One `fs.writeFileSync`. */
  datatype Write = WriteWorker(script: WorkerScript) | WriteManifest(target: Target, json: Json)

  /** The files written, in order, and the process exit code. */
  datatype BuildRun = BuildRun(writes: seq<Write>, exitCode: int)

  /** Whether reading and stamping a manifest succeeds. */
  predicate Readable(m: ManifestFile) {
    m.Parsed? && !m.json.JNull?
  }

  /** The write an existing, readable manifest gets: the parsed value with
      the version stamped in; nothing for a missing or unreadable one. */
  function StampedWrite(m: Option<ManifestFile>, target: Target, version: string): (r: seq<Write>)
    ensures |r| <= 1
    ensures |r| == 1 <==> m.Some? && Readable(m.value)
  {
    if m.Some? && Readable(m.value) then [WriteManifest(target, StampVersion(m.value.json, version).value)]
    else []
  }

  /** The stamped contents to write for one manifest, or `None` when reading
      it throws (unparsable text, or `null`). */
  function UpdateManifest(m: ManifestFile, version: string): (r: Option<Json>)
    ensures r.Some? <==> Readable(m)
    ensures m.Parsed? ==> r == StampVersion(m.json, version)
  {
    match m
    case Unparsable => None
    case Parsed(j) => StampVersion(j, version)
  }

  /** One `if (fs.existsSync(file)) { ... }` block: a missing file is
      skipped, a stampable one is written, and anything else throws, which
      ends the process with exit code 1. */
  function ManifestStep(writes: seq<Write>, target: Target, m: Option<ManifestFile>, version: string): (r: Option<seq<Write>>)
    ensures m.None? ==> r == Some(writes)
    ensures r.Some? && m.Some? ==> (
      && UpdateManifest(m.value, version).Some?
      && r.value == writes + [WriteManifest(target, UpdateManifest(m.value, version).value)])
    ensures m.Some? ==> (r.Some? <==> UpdateManifest(m.value, version).Some?)
  {
    match m
    case None => Some(writes)
    case Some(file) =>
      match UpdateManifest(file, version)
      case None => None
      case Some(j) => Some(writes + [WriteManifest(target, j)])
  }

  /** A manifest step appends the manifest's stamped write, or stops the
      build when the manifest is present but unreadable. */
  lemma ManifestStepStamped(writes: seq<Write>, target: Target, m: Option<ManifestFile>, version: string)
    ensures m.None? || Readable(m.value) ==>
      ManifestStep(writes, target, m, version) == Some(writes + StampedWrite(m, target, version))
    ensures m.Some? && !Readable(m.value) ==> ManifestStep(writes, target, m, version).None?
  {
    if m.None? {
      assert writes + [] == writes;
    }
  }

  lemma TailAfterFirst<T>(x: T, a: seq<T>, b: seq<T>)
    ensures ([x] + a)[1..] == a
    ensures ([x] + a + b)[1..] == a + b
  {
  }

  /** `buildServiceWorker()` with the clock reading `now` and the random
      numeral `random`. */
  function BuildServiceWorker(fs: FileSystem, now: nat, random: string): (r: BuildRun)
    ensures fs.site.None? ==> r == BuildRun([], 1)
    ensures fs.site.Some? ==> (
      && |r.writes| >= 1
      && r.writes[0] == WriteWorker(GenerateServiceWorker(GenerateVersion(now, random), SiteUrls(fs.site.value))))
    ensures fs.site.Some? ==> (
      var version := GenerateVersion(now, random);
      r.writes[1..] == StampedWrite(fs.siteManifest, SiteManifest, version)
                       + (if fs.siteManifest.None? || Readable(fs.siteManifest.value)
                          then StampedWrite(fs.docsManifest, DocsManifest, version) else []))
    ensures r.exitCode == 0 || r.exitCode == 1
  {
    match fs.site
    case None => BuildRun([], 1)
    case Some(tree) =>
      var version := GenerateVersion(now, random);
      var worker := WriteWorker(GenerateServiceWorker(version, SiteUrls(tree)));
      var site := StampedWrite(fs.siteManifest, SiteManifest, version);
      ManifestStepStamped([worker], SiteManifest, fs.siteManifest, version);
      ManifestStepStamped([worker] + site, DocsManifest, fs.docsManifest, version);
      TailAfterFirst(worker, site, StampedWrite(fs.docsManifest, DocsManifest, version));
      match ManifestStep([worker], SiteManifest, fs.siteManifest, version)
      case None => BuildRun([worker], 1)
      case Some(afterSite) =>
        match ManifestStep(afterSite, DocsManifest, fs.docsManifest, version)
        case None => BuildRun(afterSite, 1)
        case Some(afterDocs) => BuildRun(afterDocs, 0)
  }

  /** Whether every manifest that exists can be read and stamped. */
  predicate ManifestsReadable(fs: FileSystem) {
    && (fs.siteManifest.Some? ==> Readable(fs.siteManifest.value))
    && (fs.docsManifest.Some? ==> Readable(fs.docsManifest.value))
  }

  /** The build succeeds exactly when the site exists and every existing
      manifest is readable. */
  lemma BuildSucceedsIff(fs: FileSystem, now: nat, random: string)
    ensures BuildServiceWorker(fs, now, random).exitCode == 0 <==> fs.site.Some? && ManifestsReadable(fs)
  {
  }

  /** Every manifest written carries, in both `version` and `version_name`,
      the version the worker names its cache after, and each manifest is
      written at most once, after the worker, the site one first. */
  lemma {:induction false} ManifestsCarryWorkerVersion(fs: FileSystem, now: nat, random: string)
    requires fs.site.Some?
    ensures var r := BuildServiceWorker(fs, now, random);
      var w := r.writes[0].script.worker;
      forall i | 1 <= i < |r.writes| ::
        && r.writes[i].WriteManifest?
        && (r.writes[i].target == SiteManifest ==> i == 1 && fs.siteManifest.Some?)
        && (r.writes[i].target == DocsManifest ==> i == |r.writes| - 1 && fs.docsManifest.Some?)
        && r.writes[i].target != SiteWorker
        && (r.writes[i].json.JObject? ==>
              StampedVersion(r.writes[i].json) == Some(w.cacheName[|CachePrefix|..]))
  {
    var r := BuildServiceWorker(fs, now, random);
    var version := GenerateVersion(now, random);
    var worker := WriteWorker(GenerateServiceWorker(version, SiteUrls(fs.site.value)));
    var w := r.writes[0].script.worker;
    assert w.cacheName[|CachePrefix|..] == version;
    var siteStep := ManifestStep([worker], SiteManifest, fs.siteManifest, version);
    forall i | 1 <= i < |r.writes|
      ensures && r.writes[i].WriteManifest?
        && (r.writes[i].target == SiteManifest ==> i == 1 && fs.siteManifest.Some?)
        && (r.writes[i].target == DocsManifest ==> i == |r.writes| - 1 && fs.docsManifest.Some?)
        && r.writes[i].target != SiteWorker
        && (r.writes[i].json.JObject? ==> StampedVersion(r.writes[i].json) == Some(version))
    {
      assert siteStep.Some?;
      var afterSite := siteStep.value;
      assert |afterSite| <= 2;
      var m := if i < |afterSite| then fs.siteManifest else fs.docsManifest;
      assert m.Some?;
      var j := UpdateManifest(m.value, version).value;
      assert r.writes[i] == WriteManifest(if i < |afterSite| then SiteManifest else DocsManifest, j);
      StampCarriesVersion(m.value.json, version);
    }
  }

  /** When the site exists and both manifests are readable, the build
      succeeds, and after the worker it writes exactly the stamped site
      manifest (if present) and then the stamped docs manifest (if
      present). */
  lemma EveryManifestStamped(fs: FileSystem, now: nat, random: string)
    requires fs.site.Some? && ManifestsReadable(fs)
    ensures var r := BuildServiceWorker(fs, now, random);
      var version := GenerateVersion(now, random);
      && r.exitCode == 0
      && r.writes[1..] == StampedWrite(fs.siteManifest, SiteManifest, version)
                          + StampedWrite(fs.docsManifest, DocsManifest, version)
  {
  }

  lemma StampCarriesVersion(j: Json, version: string)
    requires !j.JNull?
    ensures var s := StampVersion(j, version).value;
      s.JObject? ==> StampedVersion(s) == Some(version)
  {
  }

  /** A missing site directory aborts before anything is written. */
  lemma MissingSiteWritesNothing(fs: FileSystem, now: nat, random: string)
    requires fs.site.None?
    ensures BuildServiceWorker(fs, now, random).writes == []
    ensures BuildServiceWorker(fs, now, random).exitCode == 1
  {
  }

  /** An unreadable site manifest stops the build after the worker is
      written: the docs manifest is left alone. */
  lemma UnreadableSiteManifestStopsBuild(fs: FileSystem, now: nat, random: string)
    requires fs.site.Some? && fs.siteManifest.Some?
    requires fs.siteManifest.value.Unparsable? || fs.siteManifest.value.json.JNull?
    ensures |BuildServiceWorker(fs, now, random).writes| == 1
    ensures BuildServiceWorker(fs, now, random).exitCode == 1
  {
  }
}

=== FILE: cache_storage.dfy ===
/** The origin's CacheStorage (`caches`) as the service worker uses it:
    named caches kept in creation order, each mapping a request URL to a
    stored response. Every operation is a pure function from the old store
    to the new one. */
module CacheStorage {
  import opened Wrappers

  /** `Response.type` */
  datatype ResponseType = Basic | Cors | Default | Error | Opaque | OpaqueRedirect

  /** The parts of a response the worker looks at, plus an opaque body. */
  datatype Response = Response(status: int, kind: ResponseType, body: string)

  /** The contents of one cache: request URL to stored response. */
  type Entries = map<string, Response>

  datatype NamedCache = NamedCache(name: string, entries: Entries)

  /** No two caches share a name. */
  predicate UniqueNames(s: seq<NamedCache>) {
    forall i, j | 0 <= i < j < |s| :: s[i].name != s[j].name
  }

  /** All caches of the origin, oldest first. `caches.keys()` lists them in
      this order and `caches.match` searches them in this order; a name
      names at most one cache. */
  type Store = s: seq<NamedCache> | UniqueNames(s) witness []

  /** `caches.keys()` */
  function Keys(s: seq<NamedCache>): (r: seq<string>)
    ensures |r| == |s|
    ensures forall i | 0 <= i < |s| :: r[i] == s[i].name
  {
    seq(|s|, i requires 0 <= i < |s| => s[i].name)
  }

  /** The contents of the cache called `name`, or None when `caches.has(name)`
      is false. */
  function Get(s: Store, name: string): (r: Option<Entries>)
    ensures r.None? <==> name !in Keys(s)
    ensures forall i | 0 <= i < |s| && s[i].name == name :: r == Some(s[i].entries)
  {
    if name in Keys(s) then
      var i :| 0 <= i < |s| && s[i].name == name;
      Some(s[i].entries)
    else None
  }

  /** `caches.open(name)`: the store gains an empty cache called `name`,
      after all others, unless one exists already. */
  function Open(s: Store, name: string): (r: Store)
    ensures Get(r, name) == Some(Get(s, name).GetOr(map[]))
    ensures forall n | n != name :: Get(r, n) == Get(s, n)
    ensures name in Keys(s) ==> r == s
    ensures name !in Keys(s) ==> r == s + [NamedCache(name, map[])]
  {
    if name in Keys(s) then s
    else
      var r: Store := s + [NamedCache(name, map[])];
      assert Keys(r) == Keys(s) + [name];
      r
  }

  /** The caches of `s` other than the one called `name`, in order. */
  function Without(s: seq<NamedCache>, name: string): (r: seq<NamedCache>)
    ensures forall c | c in r :: c in s && c.name != name
    ensures forall c | c in s && c.name != name :: c in r
    ensures UniqueNames(s) ==> UniqueNames(r)
    decreases |s|
  {
    if |s| == 0 then []
    else
      var rest := Without(s[1..], name);
      if s[0].name == name then rest
      else
        var r := [s[0]] + rest;
        assert forall c | c in s :: c == s[0] || c in s[1..];
        if UniqueNames(s) then ConsUnique(s, rest); r else r
  }

  /** Removing a name no cache has changes nothing. */
  lemma {:induction false} WithoutAbsent(s: seq<NamedCache>, name: string)
    requires forall i | 0 <= i < |s| :: s[i].name != name
    ensures Without(s, name) == s
    decreases |s|
  {
    if |s| > 0 {
      assert forall i | 0 <= i < |s[1..]| :: s[1..][i] == s[i + 1];
      WithoutAbsent(s[1..], name);
      assert [s[0]] + s[1..] == s;
    }
  }

  /** Removing the name of the cache at position `k` removes exactly that
      position: the other caches keep their order. */
  lemma {:induction false} WithoutAt(s: seq<NamedCache>, name: string, k: nat)
    requires UniqueNames(s) && k < |s| && s[k].name == name
    ensures Without(s, name) == s[..k] + s[k + 1..]
    decreases k
  {
    var t := s[1..];
    UniqueTail(s);
    if k == 0 {
      forall i | 0 <= i < |t|
        ensures t[i].name != name
      {
        assert t[i] == s[i + 1];
      }
      WithoutAbsent(t, name);
    } else {
      WithoutAt(t, name, k - 1);
      assert t[k - 1] == s[k];
      CutCons(s, k);
    }
  }

  /** The caches after the first have unique names too. */
  lemma UniqueTail(s: seq<NamedCache>)
    requires |s| > 0 && UniqueNames(s)
    ensures UniqueNames(s[1..])
  {
    forall i, j | 0 <= i < j < |s[1..]|
      ensures s[1..][i].name != s[1..][j].name
    {
      assert s[1..][i] == s[i + 1] && s[1..][j] == s[j + 1];
    }
  }

  /** Cutting position `k > 0` out of `s` keeps the head in front of the
      tail with position `k - 1` cut out. */
  lemma CutCons<T>(s: seq<T>, k: nat)
    requires 0 < k < |s|
    ensures s[..k] + s[k + 1..] == [s[0]] + (s[1..][..k - 1] + s[1..][k..])
  {
    assert s[..k] == [s[0]] + s[1..][..k - 1];
    assert s[k + 1..] == s[1..][k..];
  }

  lemma WithoutOrder(s: Store, name: string)
    ensures name !in Keys(s) ==> Without(s, name) == s
    ensures forall k | 0 <= k < |s| && s[k].name == name :: Without(s, name) == s[..k] + s[k + 1..]
  {
    if name !in Keys(s) {
      WithoutAbsent(s, name);
    }
    forall k | 0 <= k < |s| && s[k].name == name
      ensures Without(s, name) == s[..k] + s[k + 1..]
    {
      WithoutAt(s, name, k);
    }
  }

  /** Keeping the first cache in front of a selection from the others keeps
      names unique. */
  lemma ConsUnique(s: seq<NamedCache>, rest: seq<NamedCache>)
    requires |s| > 0 && UniqueNames(s)
    requires forall c | c in rest :: c in s[1..]
    requires UniqueNames(s[1..]) ==> UniqueNames(rest)
    ensures UniqueNames([s[0]] + rest)
  {
    UniqueTail(s);
    var r := [s[0]] + rest;
    forall i, j | 0 <= i < j < |r|
      ensures r[i].name != r[j].name
    {
      assert r[j] == rest[j - 1] && rest[j - 1] in s[1..];
      if i > 0 {
        assert r[i] == rest[i - 1];
      } else {
        var k :| 0 <= k < |s[1..]| && s[1..][k] == r[j];
        assert s[k + 1] == r[j];
      }
    }
  }

  /** `caches.delete(name)`: the cache called `name` disappears, nothing
      else changes. */
  function Delete(s: Store, name: string): (r: Store)
    ensures Get(r, name) == None
    ensures forall n | n != name :: Get(r, n) == Get(s, n)
    ensures forall i | 0 <= i < |r| :: r[i] in s
    ensures name !in Keys(s) ==> r == s
    ensures forall k | 0 <= k < |s| && s[k].name == name :: r == s[..k] + s[k + 1..]
  {
    var r: Store := Without(s, name);
    WithoutOrder(s, name);
    forall n | n != name
      ensures Get(r, n) == Get(s, n)
    {
      if n in Keys(s) {
        var i :| 0 <= i < |s| && s[i].name == n;
        assert s[i] in r;
      }
    }
    r
  }

  /** Replaces the contents of the cache called `name`. */
  function SetEntries(s: Store, name: string, e: Entries): (r: Store)
    requires name in Keys(s)
    ensures Get(r, name) == Some(e)
    ensures forall n | n != name :: Get(r, n) == Get(s, n)
    ensures Keys(r) == Keys(s)
  {
    var r := seq(|s|, i requires 0 <= i < |s| => if s[i].name == name then NamedCache(name, e) else s[i]);
    assert Keys(r) == Keys(s);
    r
  }

  /** `caches.open(name)` followed by `cache.put(url, response)`. */
  function Put(s: Store, name: string, url: string, resp: Response): (r: Store)
    ensures Get(r, name) == Some(Get(s, name).GetOr(map[])[url := resp])
    ensures forall n | n != name :: Get(r, n) == Get(s, n)
    ensures Keys(r) == Keys(Open(s, name))
  {
    SetEntries(Open(s, name), name, Get(s, name).GetOr(map[])[url := resp])
  }

  /** `caches.match(url)`: the response stored under `url` in the oldest
      cache that has one. */
  function Match(s: seq<NamedCache>, url: string): (r: Option<Response>)
    ensures r.None? <==> forall i | 0 <= i < |s| :: url !in s[i].entries
    ensures r.Some? ==> exists i | 0 <= i < |s| ::
      && url in s[i].entries && s[i].entries[url] == r.value
      && forall j | 0 <= j < i :: url !in s[j].entries
    decreases |s|
  {
    if |s| == 0 then None
    else if url in s[0].entries then Some(s[0].entries[url])
    else
      var r := Match(s[1..], url);
      assert forall i | 1 <= i < |s| :: s[i] == s[1..][i - 1];
      if r.Some? then
        var i :| 0 <= i < |s[1..]| && url in s[1..][i].entries && s[1..][i].entries[url] == r.value
                 && forall j | 0 <= j < i :: url !in s[1..][j].entries;
        assert forall j | 0 <= j < i + 1 :: url !in s[j].entries;
        r
      else r
  }

  /** When the caches holding `url` all agree on the response, a lookup
      returns that response. */
  lemma MatchAgreeing(s: Store, url: string, resp: Response)
    requires exists i | 0 <= i < |s| :: url in s[i].entries
    requires forall i | 0 <= i < |s| && url in s[i].entries :: s[i].entries[url] == resp
    ensures Match(s, url) == Some(resp)
  {
  }

  /** A store holding only the cache called `name` answers every lookup from
      that cache. */
  lemma MatchSingle(s: Store, name: string, url: string)
    requires forall i | 0 <= i < |s| :: s[i].name == name
    ensures Match(s, url) == if Get(s, name).Some? && url in Get(s, name).value
                             then Some(Get(s, name).value[url]) else None
  {
  }

  /** After storing under a URL that no cache held, a lookup of that URL
      finds exactly the stored response. */
  lemma MatchAfterPut(s: Store, name: string, url: string, resp: Response)
    requires Match(s, url).None?
    ensures Match(Put(s, name, url, resp), url) == Some(resp)
  {
    var r := Put(s, name, url, resp);
    forall i | 0 <= i < |r| && url in r[i].entries
      ensures r[i].entries[url] == resp
    {
      if r[i].name != name {
        assert false;
      }
    }
    var i :| 0 <= i < |r| && r[i].name == name;
    MatchAgreeing(r, url, resp);
  }
}

=== FILE: service_worker.dfy ===
/** The runtime caching policy of the generated service worker: the
    `install`, `activate` and `fetch` handlers as pure transitions over the
    cache store, each taking what the network would answer as a parameter. */
module ServiceWorker {
  import opened Wrappers
  import opened Text
  import opened CacheStorage

  /** The version the shipped worker was generated with. */
  const Version: string := "vmgestecm-yd5c73"

  /** `CACHE_NAME` of the shipped worker. */
  const CacheName: string := "tech-guide-vmgestecm-yd5c73"

  /** `STATIC_CACHE_URLS` of the shipped worker, paths relative to the origin. */
  const StaticCacheUrls: seq<string> := [
      "/404.html",
      "/assets/css/custom.css",
      "/assets/css/themes.css",
      "/assets/images/apple-touch-icon.png",
      "/assets/images/favicon.ico",
      "/assets/images/favicon.png",
      "/assets/images/icon-192-maskable.png",
      "/assets/images/icon-192.png",
      "/assets/images/icon-512-maskable.png",
      "/assets/images/icon-512.png",
      "/assets/javascripts/bundle.f55a23d4.min.js",
      "/assets/javascripts/lunr/min/lunr.ar.min.js",
      "/assets/javascripts/lunr/min/lunr.da.min.js",
      "/assets/javascripts/lunr/min/lunr.de.min.js",
      "/assets/javascripts/lunr/min/lunr.du.min.js",
      "/assets/javascripts/lunr/min/lunr.el.min.js",
      "/assets/javascripts/lunr/min/lunr.es.min.js",
      "/assets/javascripts/lunr/min/lunr.fi.min.js",
      "/assets/javascripts/lunr/min/lunr.fr.min.js",
      "/assets/javascripts/lunr/min/lunr.he.min.js",
      "/assets/javascripts/lunr/min/lunr.hi.min.js",
      "/assets/javascripts/lunr/min/lunr.hu.min.js",
      "/assets/javascripts/lunr/min/lunr.hy.min.js",
      "/assets/javascripts/lunr/min/lunr.it.min.js",
      "/assets/javascripts/lunr/min/lunr.ja.min.js",
      "/assets/javascripts/lunr/min/lunr.jp.min.js",
      "/assets/javascripts/lunr/min/lunr.kn.min.js",
      "/assets/javascripts/lunr/min/lunr.ko.min.js",
      "/assets/javascripts/lunr/min/lunr.multi.min.js",
      "/assets/javascripts/lunr/min/lunr.nl.min.js",
      "/assets/javascripts/lunr/min/lunr.no.min.js",
      "/assets/javascripts/lunr/min/lunr.pt.min.js",
      "/assets/javascripts/lunr/min/lunr.ro.min.js",
      "/assets/javascripts/lunr/min/lunr.ru.min.js",
      "/assets/javascripts/lunr/min/lunr.sa.min.js",
      "/assets/javascripts/lunr/min/lunr.stemmer.support.min.js",
      "/assets/javascripts/lunr/min/lunr.sv.min.js",
      "/assets/javascripts/lunr/min/lunr.ta.min.js",
      "/assets/javascripts/lunr/min/lunr.te.min.js",
      "/assets/javascripts/lunr/min/lunr.th.min.js",
      "/assets/javascripts/lunr/min/lunr.tr.min.js",
      "/assets/javascripts/lunr/min/lunr.vi.min.js",
      "/assets/javascripts/lunr/min/lunr.zh.min.js",
      "/assets/javascripts/lunr/tinyseg.js",
      "/assets/javascripts/lunr/wordcut.js",
      "/assets/javascripts/workers/search.973d3a69.min.js",
      "/assets/js/analytics.js",
      "/assets/js/custom.js",
      "/assets/stylesheets/main.2a3383ac.min.css",
      "/assets/stylesheets/palette.06af60db.min.css",
      "/brute-force/boolean-counter/index.html",
      "/brute-force/index.html",
      "/brute-force/meet-in-middle/index.html",
      "/brute-force/permutation-enumeration/index.html",
      "/brute-force/recursive-backtracking/index.html",
      "/counting/frequency-arrays/index.html",
      "/counting/index.html",
      "/counting/prefix-arrays/index.html",
      "/counting/sieve-eratosthenes/index.html",
      "/data-structures/disjoint-set/index.html",
      "/data-structures/heap-priority-queue/index.html",
      "/data-structures/index.html",
      "/data-structures/segment-tree-bit/index.html",
      "/dynamic-programming/bitmask-dp/index.html",
      "/dynamic-programming/dp-trees-graphs/index.html",
      "/dynamic-programming/index.html",
      "/dynamic-programming/top-down-bottom-up/index.html",
      "/geometry/convex-hull/index.html",
      "/geometry/index.html",
      "/geometry/sweep-line/index.html",
      "/graph-modeling/dfs-bfs/index.html",
      "/graph-modeling/dijkstra-bellman-ford/index.html",
      "/graph-modeling/index.html",
      "/graph-modeling/union-find/index.html",
      "/index.html",
      "/manifest.json",
      "/math/combinatorics-counting/index.html",
      "/math/geometric-formulas/index.html",
      "/math/index.html",
      "/math/linear-algebra/index.html",
      "/math/number-theory/index.html",
      "/math/trigonometry/index.html",
      "/offline.html",
      "/overrides/main.html",
      "/search/search_index.json",
      "/simulation/binary-search-answer/index.html",
      "/simulation/greedy-algorithms/index.html",
      "/simulation/index.html",
      "/simulation/two-pointer-sliding-window/index.html",
      "/string-bitwise/bitmask-tricks/index.html",
      "/string-bitwise/index.html",
      "/string-bitwise/kmp-z-algorithm/index.html",
      "/string-bitwise/trie-aho-corasick/index.html"
    ]

  /** The page a navigation falls back to when the network is unreachable. */
  const OfflinePage: string := "/offline.html"

  /** The values that differ from one generated worker to the next. */
  datatype Worker = Worker(cacheName: string, precache: seq<string>)

  /** The worker as shipped. */
  const Shipped: Worker := Worker(CacheName, StaticCacheUrls)

  /** The precache list holds the offline page, and as many entries as the
      install log line and the trailer comment announce. */
  lemma PrecacheListFacts()
    ensures |StaticCacheUrls| == 93
    ensures OfflinePage in StaticCacheUrls
  {
    assert StaticCacheUrls[82] == OfflinePage;
  }

  /** What the network answers to a request the worker forwards. */
  datatype NetOutcome = Delivered(response: Response) | NetworkError(reason: string)

  // ---------------------------------------------------------------------
  // install
  // ---------------------------------------------------------------------

  /** Whether `cache.addAll` accepts a fetched response; one refusal rejects
      the whole batch and nothing is stored. */
  predicate AddAllAccepts(o: NetOutcome) {
    && o.Delivered?
    && o.response.kind != Error
    && 200 <= o.response.status <= 299
    && o.response.status != 206
  }

  /** The absolute URLs the relative precache list resolves to, taken as
      the origin followed by the path: URL parsing (percent-encoding, dot
      segments, fragments) is not modelled, so two paths are the same
      request only when they are the same string. */
  function PrecacheKeys(w: Worker, origin: string): set<string> {
    set u | u in w.precache :: origin + u
  }

  /** The store after the handler, and whether `skipWaiting` was reached.
      The handler's promise never rejects: a failure is caught and logged. */
  datatype InstallStep = InstallStep(store: Store, skipWaiting: bool)

  /** The `install` handler: open `CACHE_NAME`, `addAll` the precache list,
      then `skipWaiting`. `net` gives the network's answer per absolute URL.
      `addAll` also rejects a batch that names the same request twice. */
  function Install(w: Worker, s: Store, origin: string, net: string -> NetOutcome): (r: InstallStep)
    ensures r.skipWaiting <==>
      Distinct(w.precache) && forall k | k in PrecacheKeys(w, origin) :: AddAllAccepts(net(k))
    ensures Get(r.store, w.cacheName).Some?
    ensures r.skipWaiting ==>
      forall k | k in PrecacheKeys(w, origin) ::
        k in Get(r.store, w.cacheName).value && Get(r.store, w.cacheName).value[k] == net(k).response
    ensures r.skipWaiting ==>
      forall k | k in Get(s, w.cacheName).GetOr(map[]) && k !in PrecacheKeys(w, origin) ::
        k in Get(r.store, w.cacheName).value && Get(r.store, w.cacheName).value[k] == Get(s, w.cacheName).value[k]
    ensures r.skipWaiting ==>
      Get(r.store, w.cacheName).value.Keys == Get(s, w.cacheName).GetOr(map[]).Keys + PrecacheKeys(w, origin)
    ensures !r.skipWaiting ==> Get(r.store, w.cacheName) == Some(Get(s, w.cacheName).GetOr(map[]))
    ensures forall n | n != w.cacheName :: Get(r.store, n) == Get(s, n)
  {
    var created := Open(s, w.cacheName);
    var keys := PrecacheKeys(w, origin);
    if Distinct(w.precache) && forall k | k in keys :: AddAllAccepts(net(k)) then
      var added := map k | k in keys :: net(k).response;
      InstallStep(SetEntries(created, w.cacheName, Get(s, w.cacheName).GetOr(map[]) + added), true)
    else
      InstallStep(created, false)
  }

  // ---------------------------------------------------------------------
  // activate
  // ---------------------------------------------------------------------

  /** The `cacheNames.map(...)` of the activate handler: every listed name
      other than `keep` is deleted. */
  function DeleteOthers(keep: string, s: Store, names: seq<string>): (r: Store)
    ensures forall n :: Get(r, n) == if n in names && n != keep then None else Get(s, n)
    decreases |names|
  {
    if |names| == 0 then s
    else
      var next := if names[0] != keep then Delete(s, names[0]) else s;
      var r := DeleteOthers(keep, next, names[1..]);
      assert forall n :: n in names <==> n == names[0] || n in names[1..];
      r
  }

  /** The `activate` handler: delete every cache not called `CACHE_NAME`.
      Afterwards that is the only name left, with its contents untouched. */
  function Activate(w: Worker, s: Store): (r: Store)
    ensures forall i | 0 <= i < |r| :: r[i].name == w.cacheName
    ensures Get(r, w.cacheName) == Get(s, w.cacheName)
  {
    var r := DeleteOthers(w.cacheName, s, Keys(s));
    forall i | 0 <= i < |r|
      ensures r[i].name == w.cacheName
    {
      assert Get(r, r[i].name).Some?;
    }
    r
  }

  lemma {:induction false} DeleteOthersKeeping(keep: string, s: Store, names: seq<string>)
    requires forall i | 0 <= i < |names| :: names[i] == keep
    ensures DeleteOthers(keep, s, names) == s
    decreases |names|
  {
    if |names| > 0 {
      DeleteOthersKeeping(keep, s, names[1..]);
    }
  }

  /** Activating twice is activating once. */
  lemma ActivateIdempotent(w: Worker, s: Store)
    ensures Activate(w, Activate(w, s)) == Activate(w, s)
  {
    DeleteOthersKeeping(w.cacheName, Activate(w, s), Keys(Activate(w, s)));
  }

  // ---------------------------------------------------------------------
  // fetch
  // ---------------------------------------------------------------------

  /** `Request.mode` */
  datatype RequestMode = Navigate | SameOrigin | NoCors | CorsMode | WebSocket

  /** A request: `verb` is `Request.method`. */
  datatype Request = Request(verb: string, url: string, mode: RequestMode)

  /** What the page gets: the browser's own handling (no `respondWith`), a
      response or `undefined`, or the re-raised network error. */
  datatype Outcome = PassThrough | Respond(response: Option<Response>) | Reject(reason: string)

  /** The store afterwards, the outcome, and whether the worker called
      `fetch` itself. */
  datatype FetchStep = FetchStep(store: Store, outcome: Outcome, usedNetwork: bool)

  /** Whether the handler calls `respondWith` for the request. */
  predicate Intercepts(origin: string, req: Request): (r: bool)
    ensures r ==> req.verb == "GET" && |origin| <= |req.url| && req.url == origin + req.url[|origin|..]
  {
    req.verb == "GET" && StartsWith(req.url, origin)
  }

  /** Conversely, every GET request for the origin followed by anything is
      intercepted. */
  lemma InterceptsExtension(origin: string, rest: string, req: Request)
    requires req.verb == "GET" && req.url == origin + rest
    ensures Intercepts(origin, req)
  {
    assert req.url[..|origin|] == origin;
  }

  /** The `fetch` handler: cache first, then the network; only a 200 `basic`
      response is stored, under `CACHE_NAME`; after a network failure a
      navigation gets the cached offline page. `net` is what the network
      would answer if asked. */
  function Fetch(w: Worker, s: Store, origin: string, req: Request, net: NetOutcome): (r: FetchStep)
    ensures r.outcome.PassThrough? <==> !Intercepts(origin, req)
    ensures r.outcome.PassThrough? ==> r.store == s && !r.usedNetwork
    ensures r.usedNetwork <==> Intercepts(origin, req) && Match(s, req.url).None?
    ensures forall n | n != w.cacheName :: Get(r.store, n) == Get(s, n)
    ensures r.store != s ==>
      net.Delivered? && net.response.status == 200 && net.response.kind == Basic
      && r.outcome == Respond(Some(net.response))
  {
    if req.verb != "GET" then FetchStep(s, PassThrough, false)
    else if !StartsWith(req.url, origin) then FetchStep(s, PassThrough, false)
    else match Match(s, req.url)
      case Some(cached) => FetchStep(s, Respond(Some(cached)), false)
      case None =>
        match net
        case Delivered(resp) =>
          if resp.status != 200 || resp.kind != Basic then FetchStep(s, Respond(Some(resp)), true)
          else FetchStep(Put(s, w.cacheName, req.url, resp), Respond(Some(resp)), true)
        case NetworkError(reason) =>
          if req.mode == Navigate then FetchStep(s, Respond(Match(s, origin + OfflinePage)), true)
          else FetchStep(s, Reject(reason), true)
  }

  /** A request whose method is not GET is left to the browser. */
  lemma NonGetNotIntercepted(w: Worker, s: Store, origin: string, req: Request, net: NetOutcome)
    requires req.verb != "GET"
    ensures Fetch(w, s, origin, req, net) == FetchStep(s, PassThrough, false)
  {
  }

  /** The same-origin test is a string prefix test, so a URL whose host
      merely begins with the worker's host is intercepted too. */
  lemma PrefixTestAdmitsLongerHost(w: Worker, s: Store, net: NetOutcome)
    ensures Fetch(w, s, "https://docs.example", Request("GET", "https://docs.example.net/a.js", CorsMode), net)
              .outcome != PassThrough
  {
    assert StartsWith("https://docs.example.net/a.js", "https://docs.example");
  }

  /** A cached response is returned as it is, without the network and
      without touching the store. */
  lemma CacheHitServedAsIs(w: Worker, s: Store, origin: string, req: Request, net: NetOutcome)
    requires Intercepts(origin, req)
    requires Match(s, req.url).Some?
    ensures Fetch(w, s, origin, req, net) == FetchStep(s, Respond(Match(s, req.url)), false)
  {
  }

  /** On a miss the caller gets the network's response itself; it is stored
      under `CACHE_NAME` exactly when its status is 200 and its type is
      `basic`. */
  lemma MissStoresOnlyOkBasic(w: Worker, s: Store, origin: string, req: Request, resp: Response)
    requires Intercepts(origin, req)
    requires Match(s, req.url).None?
    ensures Fetch(w, s, origin, req, Delivered(resp)).outcome == Respond(Some(resp))
    ensures Fetch(w, s, origin, req, Delivered(resp)).store
              == if resp.status == 200 && resp.kind == Basic then Put(s, w.cacheName, req.url, resp) else s
  {
  }

  /** After a network failure a navigation gets the cache lookup of the
      offline page (possibly `undefined`); any other request gets the error. */
  lemma NetworkFailureFallback(w: Worker, s: Store, origin: string, req: Request, reason: string)
    requires Intercepts(origin, req)
    requires Match(s, req.url).None?
    ensures Fetch(w, s, origin, req, NetworkError(reason))
              == if req.mode == Navigate then FetchStep(s, Respond(Match(s, origin + OfflinePage)), true)
                 else FetchStep(s, Reject(reason), true)
  {
  }

  // ---------------------------------------------------------------------
  // The handlers together
  // ---------------------------------------------------------------------

  /** A response the handler stored is what the next identical request is
      served, from the cache and without the network. */
  lemma StoredResponseServedNext(w: Worker, s: Store, origin: string, req: Request,
                                 resp: Response, net: NetOutcome)
    requires Intercepts(origin, req)
    requires Match(s, req.url).None?
    requires resp.status == 200 && resp.kind == Basic
    ensures var s' := Fetch(w, s, origin, req, Delivered(resp)).store;
            Fetch(w, s', origin, req, net) == FetchStep(s', Respond(Some(resp)), false)
  {
    MatchAfterPut(s, w.cacheName, req.url, resp);
  }

  /** After a successful install and an activation, every precached path is
      answered from the cache with the response fetched at install time. */
  lemma PrecacheServedAfterActivation(w: Worker, s: Store, origin: string, net: string -> NetOutcome,
                                      path: string, mode: RequestMode, later: NetOutcome)
    requires Install(w, s, origin, net).skipWaiting
    requires path in w.precache
    ensures var a := Activate(w, Install(w, s, origin, net).store);
            Fetch(w, a, origin, Request("GET", origin + path, mode), later)
              == FetchStep(a, Respond(Some(net(origin + path).response)), false)
  {
    var url := origin + path;
    var a := Activate(w, Install(w, s, origin, net).store);
    PrecacheInstalled(w, s, origin, net, path);
    MatchSingle(a, w.cacheName, url);
    InterceptsExtension(origin, path, Request("GET", url, mode));
    CachedServed(w, a, origin, Request("GET", url, mode), later);
  }

  /** An intercepted request that the store can answer is answered from it,
      without the network and without changing the store. */
  lemma CachedServed(w: Worker, s: Store, origin: string, req: Request, net: NetOutcome)
    requires Intercepts(origin, req) && Match(s, req.url).Some?
    ensures Fetch(w, s, origin, req, net) == FetchStep(s, Respond(Match(s, req.url)), false)
  {
  }

  /** After a successful install, the worker's cache answers a precached
      path with the response the network gave for it, and activation keeps
      that cache as it is. */
  lemma PrecacheInstalled(w: Worker, s: Store, origin: string, net: string -> NetOutcome, path: string)
    requires Install(w, s, origin, net).skipWaiting
    requires path in w.precache
    ensures var c := Get(Activate(w, Install(w, s, origin, net).store), w.cacheName);
            c.Some? && origin + path in c.value && c.value[origin + path] == net(origin + path).response
  {
    var installed := Install(w, s, origin, net).store;
    assert origin + path in PrecacheKeys(w, origin);
    assert Get(Activate(w, installed), w.cacheName) == Get(installed, w.cacheName);
  }

  /** With the offline page precached, a successful install and an
      activation, a navigation while the network is down to a page that is
      neither precached nor in the old `CACHE_NAME` gets the offline page. */
  lemma OfflinePageAfterActivation(w: Worker, s: Store, origin: string, net: string -> NetOutcome,
                                   req: Request, reason: string)
    requires OfflinePage in w.precache
    requires Install(w, s, origin, net).skipWaiting
    requires Intercepts(origin, req) && req.mode == Navigate
    requires req.url !in PrecacheKeys(w, origin) && req.url !in Get(s, w.cacheName).GetOr(map[])
    ensures var a := Activate(w, Install(w, s, origin, net).store);
            Fetch(w, a, origin, req, NetworkError(reason))
              == FetchStep(a, Respond(Some(net(origin + OfflinePage).response)), true)
  {
    var a := Activate(w, Install(w, s, origin, net).store);
    var page := origin + OfflinePage;
    PrecacheInstalled(w, s, origin, net, OfflinePage);
    MatchSingle(a, w.cacheName, page);
    assert Match(a, page) == Some(net(page).response);
    UncachedAfterActivation(w, s, origin, net, req.url);
    MatchSingle(a, w.cacheName, req.url);
    assert Match(a, req.url).None?;
    NetworkFailureFallback(w, a, origin, req, reason);
  }

  /** A URL that is neither a precache URL nor in the old `CACHE_NAME` is
      still missing from that cache after a successful install and an
      activation. */
  lemma UncachedAfterActivation(w: Worker, s: Store, origin: string, net: string -> NetOutcome, url: string)
    requires Install(w, s, origin, net).skipWaiting
    requires url !in PrecacheKeys(w, origin) && url !in Get(s, w.cacheName).GetOr(map[])
    ensures var c := Get(Activate(w, Install(w, s, origin, net).store), w.cacheName);
            c.Some? && url !in c.value
  {
    var installed := Install(w, s, origin, net).store;
    assert Get(Activate(w, installed), w.cacheName) == Get(installed, w.cacheName);
  }

  /** A precache list that names a path twice is refused by `addAll`,
      whatever the network answers: install only opens the cache and never
      reaches `skipWaiting`. */
  lemma DuplicatePrecacheRefused(w: Worker, s: Store, origin: string, net: string -> NetOutcome, i: nat, j: nat)
    requires i < j < |w.precache| && w.precache[i] == w.precache[j]
    ensures Install(w, s, origin, net) == InstallStep(Open(s, w.cacheName), false)
  {
  }

  /** When the precache batch is refused, the worker does not skip waiting
      and the store only gains an empty `CACHE_NAME` if it had none. */
  lemma InstallFailureSwallowed(w: Worker, s: Store, origin: string, net: string -> NetOutcome, path: string)
    requires path in w.precache && !AddAllAccepts(net(origin + path))
    ensures Install(w, s, origin, net) == InstallStep(Open(s, w.cacheName), false)
  {
    assert origin + path in PrecacheKeys(w, origin);
  }

  /** The install handler swallows a refused batch, so the worker still
      installs and later activates. When `CACHE_NAME` did not exist before,
      activation leaves it as the only cache, and empty: offline support is
      lost, and a navigation with the network down gets `undefined`. */
  lemma FailedInstallThenActivate(w: Worker, s: Store, origin: string, net: string -> NetOutcome,
                                  req: Request, reason: string)
    requires !Install(w, s, origin, net).skipWaiting
    requires w.cacheName !in Keys(s)
    requires Intercepts(origin, req) && req.mode == Navigate
    ensures var a := Activate(w, Install(w, s, origin, net).store);
      && Get(a, w.cacheName) == Some(map[])
      && Fetch(w, a, origin, req, NetworkError(reason)) == FetchStep(a, Respond(None), true)
  {
    var installed := Install(w, s, origin, net).store;
    var a := Activate(w, installed);
    assert Get(a, w.cacheName) == Some(map[]);
    MatchSingle(a, w.cacheName, req.url);
    MatchSingle(a, w.cacheName, origin + OfflinePage);
  }
}

=== FILE: site_files.dfy ===
/** The file selection of the build script (`getAllFiles`): which files of
    the built site go into the precache list, in which order, and the URL
    each one becomes. The directory tree is a value; reading it is left to
    the caller. */
module SiteFiles {
  import opened Text

  /** A directory entry. A directory holds its entries in the order
      `readdirSync` returns them. */
  datatype Entry = File(name: string) | Dir(name: string, children: seq<Entry>)

  /** Directories never descended into. */
  const SkippedDirs: set<string> := {"node_modules", ".git", ".cache"}

  /** Extensions (lower case) of the files that are precached. */
  const CacheableExtensions: set<string> :=
    {".html", ".css", ".js", ".json", ".png", ".ico", ".svg", ".woff", ".woff2"}

  // ---------------------------------------------------------------------
  // Extensions
  // ---------------------------------------------------------------------

  /** `path.extname(name)` for a base name: from the last dot to the end,
      or empty when there is no dot, when the only dot is the first
      character, or for `..`. */
  function ExtName(name: string): (r: string)
    ensures r == [] || (r[0] == '.' && Free(r[1..], '.'))
    ensures |r| < |name| || r == []
    ensures r == name[|name| - |r|..]
  {
    if name == ".." then []
    else
      var i := LastIndexOf(name, '.');
      if i <= 0 then [] else name[i..]
  }

  /** A name whose last dot follows at least one character has that dot and
      what follows it as its extension. */
  lemma ExtNameOfSuffix(stem: string, ext: string)
    requires |stem| > 0 && |ext| > 0 && ext[0] == '.' && Free(ext[1..], '.')
    requires !(stem == "." && ext == ".")
    ensures ExtName(stem + ext) == ext
  {
    assert stem + ext == stem + ['.'] + ext[1..];
    LastIndexAfter(stem, '.', ext[1..]);
  }

  /** The test applied to every file: its lower-cased extension is one of
      the whitelisted ones. */
  predicate IsCacheable(name: string): (r: bool)
    ensures r ==> 1 < |ExtName(name)| < |name|
  {
    ToLower(ExtName(name)) in CacheableExtensions
  }

  /** Case is ignored: a name passes the test whenever its extension,
      lower-cased, is whitelisted, whatever case the extension is written in. */
  lemma UpperCaseExtensionCacheable(stem: string, ext: string)
    requires |stem| > 0 && |ext| > 1 && ext[0] == '.' && Free(ext[1..], '.')
    requires ToLower(ext) in CacheableExtensions
    ensures IsCacheable(stem + ext)
  {
    ExtNameOfSuffix(stem, ext);
  }

  /** `.HTML` is such an extension. */
  lemma UpperHtmlWhitelisted()
    ensures ToLower(".HTML") == ".html" && ".html" in CacheableExtensions
  {
  }

  /** A name whose only dot is its first character has no extension. */
  lemma DotFileNotCacheable()
    ensures !IsCacheable(".js")
  {
    var s := ".js";
    assert s[0] == '.' && s[1] == 'j' && s[2] == 's';
    assert !Free(s, '.');
    assert LastIndexOf(s, '.') == 0;
    assert ExtName(s) == [];
  }

  /** Only the last extension counts. */
  lemma LastExtensionCounts()
    ensures !IsCacheable("bundle.js.map")
  {
    MapExtension();
    assert ToLower(".map") == ".map";
  }

  lemma MapExtension()
    ensures ExtName("bundle.js.map") == ".map"
  {
    assert "bundle.js" + ".map" == "bundle.js.map";
    ExtNameOfSuffix("bundle.js", ".map");
  }

  // ---------------------------------------------------------------------
  // URLs
  // ---------------------------------------------------------------------

  /** The URL of the file at relative path `rel` (components below the site
      directory): `'/' + path.relative(SITE_DIR, filePath).replace(/\\/g, '/')`
      where the relative path is joined with the platform separator `sep`. */
  function FileUrl(rel: seq<string>, sep: char): (u: string)
    ensures |u| > 0 && u[0] == '/'
    ensures Free(u, '\\')
  {
    "/" + ReplaceAll(Join(rel, sep), '\\', '/')
  }

  lemma ReplaceAllAppend(a: string, b: string, from: char, to: char)
    ensures ReplaceAll(a + b, from, to) == ReplaceAll(a, from, to) + ReplaceAll(b, from, to)
  {
  }

  lemma {:induction false} JoinReplaced(rel: seq<string>)
    ensures ReplaceAll(Join(rel, '\\'), '\\', '/') == ReplaceAll(Join(rel, '/'), '\\', '/')
    decreases |rel|
  {
    if |rel| > 1 {
      JoinReplaced(rel[1..]);
      ReplaceAllAppend(rel[0] + ['\\'], Join(rel[1..], '\\'), '\\', '/');
      ReplaceAllAppend(rel[0], ['\\'], '\\', '/');
      ReplaceAllAppend(rel[0] + ['/'], Join(rel[1..], '/'), '\\', '/');
      ReplaceAllAppend(rel[0], ['/'], '\\', '/');
    }
  }

  /** The backslash replacement makes the URL independent of the platform
      separator. */
  lemma UrlIndependentOfSeparator(rel: seq<string>)
    ensures FileUrl(rel, '\\') == FileUrl(rel, '/')
  {
    JoinReplaced(rel);
  }

  /** Components free of both separators join into a backslash-free path. */
  lemma {:induction false} JoinFree(rel: seq<string>)
    requires forall k | 0 <= k < |rel| :: Free(rel[k], '\\')
    ensures Free(Join(rel, '/'), '\\')
    decreases |rel|
  {
    if |rel| > 1 {
      JoinFree(rel[1..]);
    }
  }

  /** Distinct relative paths of clean names have distinct URLs. */
  lemma FileUrlInjective(a: seq<string>, b: seq<string>)
    requires |a| > 0 && |b| > 0
    requires forall k | 0 <= k < |a| :: Free(a[k], '/') && Free(a[k], '\\')
    requires forall k | 0 <= k < |b| :: Free(b[k], '/') && Free(b[k], '\\')
    requires FileUrl(a, '/') == FileUrl(b, '/')
    ensures a == b
  {
    JoinFree(a);
    JoinFree(b);
    var ja, jb := Join(a, '/'), Join(b, '/');
    assert ReplaceAll(ja, '\\', '/') == ja;
    assert ReplaceAll(jb, '\\', '/') == jb;
    assert FileUrl(a, '/')[1..] == ja;
    assert FileUrl(b, '/')[1..] == jb;
    JoinInjective(a, b, '/');
  }

  // ---------------------------------------------------------------------
  // getAllFiles
  // ---------------------------------------------------------------------

  /** A URL as the build writes one: a leading `/` and no backslash. */
  predicate IsSiteUrl(u: string) {
    |u| > 0 && u[0] == '/' && Free(u, '\\')
  }

  /** `r` is `before` with well-formed URLs appended. */
  predicate Extends(before: seq<string>, r: seq<string>) {
    && |before| <= |r| && r[..|before|] == before
    && forall i | |before| <= i < |r| :: IsSiteUrl(r[i])
  }

  lemma ExtendsTrans(a: seq<string>, b: seq<string>, c: seq<string>)
    requires Extends(a, b) && Extends(b, c)
    ensures Extends(a, c)
  {
    assert c[..|a|] == c[..|b|][..|a|];
    assert forall i | |a| <= i < |b| :: c[i] == c[..|b|][i];
  }

  /** `getAllFiles(dir, fileList)`: walks `entries`, the contents of the
      directory at relative path `dir`, appending to `fileList`. Paths are
      joined with `/`. */
  function GetAllFiles(dir: seq<string>, entries: seq<Entry>, fileList: seq<string>): (r: seq<string>)
    ensures Extends(fileList, r)
    decreases entries, 1
  {
    if |entries| == 0 then fileList
    else
      var next := AddEntry(dir, entries[0], fileList);
      var r := GetAllFiles(dir, entries[1..], next);
      ExtendsTrans(fileList, next, r);
      r
  }

  /** The body of the `forEach` over a directory's entries: descend into a
      directory unless it is skipped; append the URL of a cacheable file. */
  function AddEntry(dir: seq<string>, e: Entry, fileList: seq<string>): (r: seq<string>)
    ensures Extends(fileList, r)
    decreases e, 0
  {
    match e
    case Dir(name, children) =>
      if name in SkippedDirs then fileList else GetAllFiles(dir + [name], children, fileList)
    case File(name) =>
      if IsCacheable(name) then fileList + [FileUrl(dir + [name], '/')] else fileList
  }

  /** The precache list the build computes for a site whose top directory
      holds `site`. */
  function SiteUrls(site: seq<Entry>): (r: seq<string>)
    ensures forall i | 0 <= i < |r| :: IsSiteUrl(r[i])
  {
    GetAllFiles([], site, [])
  }

  // ---------------------------------------------------------------------
  // Reference definition: the listed paths
  // ---------------------------------------------------------------------

  /** Prefixes every path with the directory name `n`. */
  function Under(n: string, ps: seq<seq<string>>): (r: seq<seq<string>>)
    ensures |r| == |ps|
    ensures forall i | 0 <= i < |ps| :: r[i] == [n] + ps[i]
  {
    seq(|ps|, i requires 0 <= i < |ps| => [n] + ps[i])
  }

  /** The relative paths of the listed files, depth first in entry order. */
  function ListedPaths(entries: seq<Entry>): seq<seq<string>>
    decreases entries, 1
  {
    if |entries| == 0 then [] else HeadPaths(entries[0]) + ListedPaths(entries[1..])
  }

  /** The relative paths one entry contributes: a cacheable file itself, or
      what a directory that is not skipped lists, under its name. */
  function HeadPaths(e: Entry): seq<seq<string>>
    decreases e, 0
  {
    match e
    case File(n) => if IsCacheable(n) then [[n]] else []
    case Dir(n, cs) => if n in SkippedDirs then [] else Under(n, ListedPaths(cs))
  }

  /** The URLs of relative paths below `dir`. */
  function Urls(dir: seq<string>, ps: seq<seq<string>>): (r: seq<string>)
    ensures |r| == |ps|
    ensures forall i | 0 <= i < |ps| :: r[i] == FileUrl(dir + ps[i], '/')
  {
    seq(|ps|, i requires 0 <= i < |ps| => FileUrl(dir + ps[i], '/'))
  }

  lemma UrlsUnder(dir: seq<string>, n: string, ps: seq<seq<string>>)
    ensures Urls(dir + [n], ps) == Urls(dir, Under(n, ps))
  {
    forall i | 0 <= i < |ps|
      ensures (dir + [n]) + ps[i] == dir + ([n] + ps[i])
    {
    }
  }

  lemma UrlsAppend(dir: seq<string>, a: seq<seq<string>>, b: seq<seq<string>>)
    ensures Urls(dir, a + b) == Urls(dir, a) + Urls(dir, b)
  {
  }

  /** The accumulator of `getAllFiles` only ever has the URLs of the listed
      paths appended to it, in listing order. */
  lemma {:induction false} GetAllFilesAppendsListed(dir: seq<string>, entries: seq<Entry>, fileList: seq<string>)
    ensures GetAllFiles(dir, entries, fileList) == fileList + Urls(dir, ListedPaths(entries))
    decreases entries, 1
  {
    if |entries| > 0 {
      var next := AddEntry(dir, entries[0], fileList);
      assert GetAllFiles(dir, entries, fileList) == GetAllFiles(dir, entries[1..], next);
      AddEntryListed(dir, entries[0], fileList);
      GetAllFilesAppendsListed(dir, entries[1..], next);
      ListedPathsCons(entries);
      UrlsAppend(dir, HeadPaths(entries[0]), ListedPaths(entries[1..]));
    }
  }

  /** One entry appends the URLs of the paths it contributes. */
  lemma {:induction false} AddEntryListed(dir: seq<string>, e: Entry, fileList: seq<string>)
    ensures AddEntry(dir, e, fileList) == fileList + Urls(dir, HeadPaths(e))
    decreases e, 0
  {
    match e
    case Dir(n, cs) =>
      if n !in SkippedDirs {
        GetAllFilesAppendsListed(dir + [n], cs, fileList);
        UrlsUnder(dir, n, ListedPaths(cs));
      }
    case File(n) =>
      if IsCacheable(n) {
        assert Urls(dir, [[n]]) == [FileUrl(dir + [n], '/')];
      }
  }

  /** Listing follows entry order: the listing of two runs of entries is the
      listing of the first followed by that of the second. */
  lemma {:induction false} ListedPathsAppend(a: seq<Entry>, b: seq<Entry>)
    ensures ListedPaths(a + b) == ListedPaths(a) + ListedPaths(b)
    decreases |a|
  {
    if |a| > 0 {
      assert (a + b)[0] == a[0];
      assert (a + b)[1..] == a[1..] + b;
      ListedPathsAppend(a[1..], b);
    } else {
      assert a + b == b;
    }
  }

  // ---------------------------------------------------------------------
  // Which files are listed
  // ---------------------------------------------------------------------

  /** `p` is the relative path of a file of the tree `es`. */
  ghost predicate FileAt(es: seq<Entry>, p: seq<string>)
    decreases |p|
  {
    if |p| == 0 then false
    else if |p| == 1 then File(p[0]) in es
    else exists cs :: Dir(p[0], cs) in es && FileAt(cs, p[1..])
  }

  /** Some directory on the way to `p` is a skipped one. */
  predicate ThroughSkipped(p: seq<string>) {
    exists i | 0 <= i < |p| - 1 :: p[i] in SkippedDirs
  }

  lemma FileAtCons(es: seq<Entry>, p: seq<string>)
    requires |es| > 0
    ensures FileAt(es, p) <==> FileAt([es[0]], p) || FileAt(es[1..], p)
  {
    assert forall e :: e in es <==> e == es[0] || e in es[1..];
  }

  lemma ThroughSkippedCons(p: seq<string>)
    requires |p| >= 2
    ensures ThroughSkipped(p) <==> p[0] in SkippedDirs || ThroughSkipped(p[1..])
  {
    if ThroughSkipped(p) && p[0] !in SkippedDirs {
      var i :| 0 <= i < |p| - 1 && p[i] in SkippedDirs;
      assert p[1..][i - 1] == p[i];
    }
    if ThroughSkipped(p[1..]) {
      var i :| 0 <= i < |p| - 2 && p[1..][i] in SkippedDirs;
      assert p[i + 1] in SkippedDirs;
    }
  }

  lemma {:induction false} ListedPathsNonEmpty(es: seq<Entry>)
    ensures forall i | 0 <= i < |ListedPaths(es)| :: |ListedPaths(es)[i]| > 0
    decreases es
  {
    if |es| > 0 {
      ListedPathsNonEmpty(es[1..]);
      match es[0]
      case File(n) =>
      case Dir(n, cs) =>
        ListedPathsNonEmpty(cs);
    }
  }

  lemma FileAtSingleDir(n: string, cs: seq<Entry>, p: seq<string>)
    ensures FileAt([Dir(n, cs)], p) <==> |p| >= 2 && p[0] == n && FileAt(cs, p[1..])
  {
    if |p| >= 2 && FileAt([Dir(n, cs)], p) {
      var cs' :| Dir(p[0], cs') in [Dir(n, cs)] && FileAt(cs', p[1..]);
    }
    if |p| == 1 {
      assert !(File(p[0]) in [Dir(n, cs)]);
    }
  }

  /** A directory contributes exactly the listable files below it, given
      that its children list exactly theirs. */
  lemma DirPathsExactly(n: string, cs: seq<Entry>, p: seq<string>)
    requires |p| >= 2 ==>
      (p[1..] in ListedPaths(cs) <==> FileAt(cs, p[1..]) && IsCacheable(p[|p| - 1]) && !ThroughSkipped(p[1..]))
    ensures p in HeadPaths(Dir(n, cs)) <==> FileAt([Dir(n, cs)], p) && IsCacheable(p[|p| - 1]) && !ThroughSkipped(p)
  {
    var head := HeadPaths(Dir(n, cs));
    FileAtSingleDir(n, cs, p);
    if n in SkippedDirs {
      if |p| >= 2 && p[0] == n {
        ThroughSkippedCons(p);
      }
    } else {
      assert head == Under(n, ListedPaths(cs));
      if |p| >= 2 && p[0] == n {
        ThroughSkippedCons(p);
        assert p in head <==> p[1..] in ListedPaths(cs) by {
          if p[1..] in ListedPaths(cs) {
            var i :| 0 <= i < |ListedPaths(cs)| && ListedPaths(cs)[i] == p[1..];
            assert head[i] == p;
          }
        }
      } else {
        ListedPathsNonEmpty(cs);
        assert p !in head;
      }
    }
  }

  /** The paths one entry contributes are exactly the listable files below
      it, given that this holds for a directory's children. */
  lemma HeadPathsExactly(e: Entry, p: seq<string>)
    requires e.Dir? && |p| >= 2 ==>
      (p[1..] in ListedPaths(e.children) <==>
        FileAt(e.children, p[1..]) && IsCacheable(p[|p| - 1]) && !ThroughSkipped(p[1..]))
    ensures p in HeadPaths(e) <==> FileAt([e], p) && IsCacheable(p[|p| - 1]) && !ThroughSkipped(p)
  {
    match e
    case File(n) =>
      assert FileAt([e], p) <==> p == [n];
    case Dir(n, cs) =>
      DirPathsExactly(n, cs, p);
  }

  /** A file is listed if and only if it is in the tree, its extension
      passes the test, and no directory on its way is a skipped one: skipped
      directories are never entered and every other directory is. */
  lemma {:induction false} ListedPathsExactly(es: seq<Entry>, p: seq<string>)
    ensures p in ListedPaths(es) <==>
      FileAt(es, p) && IsCacheable(p[|p| - 1]) && !ThroughSkipped(p)
    decreases es
  {
    if |es| == 0 {
      if |p| > 1 {
        assert !exists cs :: Dir(p[0], cs) in es;
      }
    } else {
      ListedPathsExactly(es[1..], p);
      FileAtCons(es, p);
      if es[0].Dir? && |p| >= 2 {
        ListedPathsExactly(es[0].children, p[1..]);
        assert p[1..][|p[1..]| - 1] == p[|p| - 1];
      }
      HeadPathsExactly(es[0], p);
      ListedPathsCons(es);
    }
  }

  // ---------------------------------------------------------------------
  // Each file is listed once
  // ---------------------------------------------------------------------

  /** The assumption the distinctness results rest on: names within a
      directory are unique (which every file system guarantees) and contain
      neither `/` nor `\` (which holds on Windows, where both separate path
      components, but not on POSIX systems, where `\` is an ordinary name
      character; see `BackslashNameCollides`). */
  predicate WellFormed(es: seq<Entry>)
    decreases es
  {
    && (forall i, j | 0 <= i < j < |es| :: es[i].name != es[j].name)
    && (forall i | 0 <= i < |es| :: Free(es[i].name, '/') && Free(es[i].name, '\\'))
    && (forall i | 0 <= i < |es| :: es[i].Dir? ==> WellFormed(es[i].children))
  }

  /** Every component of the path is free of both separators. */
  predicate CleanPath(p: seq<string>) {
    forall k | 0 <= k < |p| :: Free(p[k], '/') && Free(p[k], '\\')
  }


  /** The names of the entries, in order. */
  function Names(es: seq<Entry>): (r: seq<string>)
    ensures |r| == |es|
    ensures forall i | 0 <= i < |es| :: r[i] == es[i].name
  {
    seq(|es|, i requires 0 <= i < |es| => es[i].name)
  }

  lemma ListedPathsCons(es: seq<Entry>)
    requires |es| > 0
    ensures ListedPaths(es) == HeadPaths(es[0]) + ListedPaths(es[1..])
  {
  }

  lemma WellFormedTail(es: seq<Entry>)
    requires |es| > 0 && WellFormed(es)
    ensures WellFormed(es[1..])
    ensures es[0].Dir? ==> WellFormed(es[0].children)
    ensures es[0].name !in Names(es[1..])
  {
    assert forall i | 0 <= i < |es[1..]| :: es[1..][i] == es[i + 1];
  }

  /** Every path is non-empty and starts with one of `names`. */
  predicate StartsIn(ps: seq<seq<string>>, names: seq<string>) {
    forall k | 0 <= k < |ps| :: |ps[k]| > 0 && ps[k][0] in names
  }

  lemma StartsInAppend(a: seq<seq<string>>, b: seq<seq<string>>, names: seq<string>)
    requires StartsIn(a, names) && StartsIn(b, names)
    ensures StartsIn(a + b, names)
  {
    assert forall k | |a| <= k < |a + b| :: (a + b)[k] == b[k - |a|];
  }

  lemma HeadPathsStart(e: Entry)
    ensures forall k | 0 <= k < |HeadPaths(e)| :: |HeadPaths(e)[k]| > 0 && HeadPaths(e)[k][0] == e.name
  {
  }

  /** Every listed path is non-empty and starts with the name of one of the
      entries. */
  lemma {:induction false} ListedPathsStart(es: seq<Entry>)
    ensures StartsIn(ListedPaths(es), Names(es))
    decreases es
  {
    if |es| > 0 {
      var names := Names(es);
      ListedPathsStart(es[1..]);
      HeadPathsStart(es[0]);
      ListedPathsCons(es);
      assert forall i | 0 <= i < |es| - 1 :: Names(es[1..])[i] == names[i + 1];
      assert StartsIn(ListedPaths(es[1..]), names);
      assert StartsIn(HeadPaths(es[0]), names);
      StartsInAppend(HeadPaths(es[0]), ListedPaths(es[1..]), names);
    }
  }

  lemma HeadPathsClean(e: Entry)
    requires Free(e.name, '/') && Free(e.name, '\\')
    requires e.Dir? ==> forall k | 0 <= k < |ListedPaths(e.children)| :: CleanPath(ListedPaths(e.children)[k])
    ensures forall k | 0 <= k < |HeadPaths(e)| :: CleanPath(HeadPaths(e)[k])
  {
    match e
    case File(n) =>
    case Dir(n, cs) =>
      if n !in SkippedDirs {
        var ps := ListedPaths(cs);
        var head := HeadPaths(e);
        assert head == Under(n, ps);
        forall k | 0 <= k < |head|
          ensures CleanPath(head[k])
        {
          CleanCons(n, ps[k]);
        }
      }
  }

  lemma CleanCons(n: string, q: seq<string>)
    requires Free(n, '/') && Free(n, '\\') && CleanPath(q)
    ensures CleanPath([n] + q)
  {
    assert forall m | 1 <= m < |[n] + q| :: ([n] + q)[m] == q[m - 1];
  }

  /** In a well-formed tree every listed path consists of clean names. */
  lemma {:induction false} ListedPathsClean(es: seq<Entry>)
    requires WellFormed(es)
    ensures forall k | 0 <= k < |ListedPaths(es)| :: CleanPath(ListedPaths(es)[k])
    decreases es
  {
    if |es| > 0 {
      WellFormedTail(es);
      ListedPathsClean(es[1..]);
      if es[0].Dir? {
        ListedPathsClean(es[0].children);
      }
      HeadPathsClean(es[0]);
      ListedPathsCons(es);
      CleanAppend(HeadPaths(es[0]), ListedPaths(es[1..]));
    }
  }

  lemma CleanAppend(a: seq<seq<string>>, b: seq<seq<string>>)
    requires forall k | 0 <= k < |a| :: CleanPath(a[k])
    requires forall k | 0 <= k < |b| :: CleanPath(b[k])
    ensures forall k | 0 <= k < |a + b| :: CleanPath((a + b)[k])
  {
    assert forall k | |a| <= k < |a + b| :: (a + b)[k] == b[k - |a|];
  }

  lemma HeadPathsDistinct(e: Entry)
    requires e.Dir? ==> Distinct(ListedPaths(e.children))
    ensures Distinct(HeadPaths(e))
    ensures forall k | 0 <= k < |HeadPaths(e)| :: |HeadPaths(e)[k]| > 0 && HeadPaths(e)[k][0] == e.name
  {
    match e
    case File(n) =>
    case Dir(n, cs) =>
      var head, ps := HeadPaths(e), ListedPaths(cs);
      forall i, j | 0 <= i < j < |head|
        ensures head[i] != head[j]
      {
        assert head[i][1..] == ps[i];
        assert head[j][1..] == ps[j];
      }
  }

  /** In a well-formed tree no path is listed twice. */
  lemma {:induction false} ListedPathsDistinct(es: seq<Entry>)
    requires WellFormed(es)
    ensures Distinct(ListedPaths(es))
    decreases es
  {
    if |es| > 0 {
      WellFormedTail(es);
      ListedPathsDistinct(es[1..]);
      ListedPathsStart(es[1..]);
      ListedPathsCons(es);
      if es[0].Dir? {
        ListedPathsDistinct(es[0].children);
      }
      HeadPathsDistinct(es[0]);
      var head, rest := HeadPaths(es[0]), ListedPaths(es[1..]);
      forall p | p in head
        ensures p !in rest
      {
        assert p[0] == es[0].name;
      }
      DistinctAppend(head, rest);
    }
  }

  /** Distinct clean paths give distinct URLs. */
  lemma UrlsDistinct(ps: seq<seq<string>>)
    requires Distinct(ps)
    requires forall k | 0 <= k < |ps| :: |ps[k]| > 0 && CleanPath(ps[k])
    ensures Distinct(Urls([], ps))
  {
    var us := Urls([], ps);
    forall i, j | 0 <= i < j < |ps|
      ensures us[i] != us[j]
    {
      assert [] + ps[i] == ps[i] && [] + ps[j] == ps[j];
      if FileUrl(ps[i], '/') == FileUrl(ps[j], '/') {
        FileUrlInjective(ps[i], ps[j]);
      }
    }
  }

  /** Without the assumption the list can repeat a URL: on a POSIX system a
      file named `a\b.html` and the file `b.html` of directory `a` both
      become `/a/b.html`. */
  lemma BackslashNameCollides(d: string, stem: string, ext: string)
    requires |d| > 0 && Free(d, '\\') && d !in SkippedDirs
    requires |stem| > 0 && Free(stem, '\\') && Free(ext, '\\')
    requires |ext| > 1 && ext[0] == '.' && Free(ext[1..], '.') && ToLower(ext) in CacheableExtensions
    ensures var u := "/" + d + "/" + (stem + ext);
      SiteUrls([File(d + "\\" + (stem + ext)), Dir(d, [File(stem + ext)])]) == [u, u]
  {
    var f := stem + ext;
    FreeAppend(stem, ext, '\\');
    UpperCaseExtensionCacheable(stem, ext);
    BackslashNameCacheable(d, stem, ext);
    BackslashNameUrl(d, f);
    NestedUrl(d, f);
    TopFileAndSubdirWalk(d + "\\" + f, d, f);
  }

  lemma BackslashNameCacheable(d: string, stem: string, ext: string)
    requires |stem| > 0 && |ext| > 1 && ext[0] == '.' && Free(ext[1..], '.')
    requires ToLower(ext) in CacheableExtensions
    ensures IsCacheable(d + "\\" + (stem + ext))
  {
    assert d + "\\" + (stem + ext) == (d + "\\" + stem) + ext;
    UpperCaseExtensionCacheable(d + "\\" + stem, ext);
  }

  /** The listing of a cacheable top-level file followed by a directory
      holding one cacheable file. */
  lemma TopFileAndSubdirWalk(top: string, d: string, f: string)
    requires IsCacheable(top) && IsCacheable(f) && d !in SkippedDirs
    ensures SiteUrls([File(top), Dir(d, [File(f)])]) == [FileUrl([top], '/'), FileUrl([d, f], '/')]
  {
    var first := [FileUrl([top], '/')];
    TopFileStep(top);
    SubdirListing(d, f, first);
    TwoEntryWalk(File(top), Dir(d, [File(f)]));
    assert first + [FileUrl([d, f], '/')] == [FileUrl([top], '/'), FileUrl([d, f], '/')];
  }

  lemma TopFileStep(top: string)
    requires IsCacheable(top)
    ensures AddEntry([], File(top), []) == [FileUrl([top], '/')]
  {
    CacheableFileStep([], top, []);
    assert [] + [top] == [top];
  }

  /** Walking two top-level entries walks the second after the first. */
  lemma TwoEntryWalk(a: Entry, b: Entry)
    ensures GetAllFiles([], [a, b], []) == GetAllFiles([], [b], AddEntry([], a, []))
  {
    assert [a, b] == [a] + [b];
    WalkCons([], a, [b], []);
  }

  /** A cacheable file's step appends its URL. */
  lemma CacheableFileStep(dir: seq<string>, name: string, acc: seq<string>)
    requires IsCacheable(name)
    ensures AddEntry(dir, File(name), acc) == acc + [FileUrl(dir + [name], '/')]
  {
  }

  /** Walking a top-level directory that holds one cacheable file appends
      that file's URL. */
  lemma SubdirListing(d: string, f: string, acc: seq<string>)
    requires IsCacheable(f) && d !in SkippedDirs
    ensures GetAllFiles([], [Dir(d, [File(f)])], acc) == acc + [FileUrl([d, f], '/')]
  {
    WalkSingle([], Dir(d, [File(f)]), acc);
    assert [] + [d] == [d];
    WalkSingle([d], File(f), acc);
    CacheableFileStep([d], f, acc);
    assert [d] + [f] == [d, f];
  }

  /** Walking one entry is that entry's step. */
  lemma WalkSingle(dir: seq<string>, e: Entry, acc: seq<string>)
    ensures GetAllFiles(dir, [e], acc) == AddEntry(dir, e, acc)
  {
    assert [e][1..] == [];
  }

  /** Walking `[e] + rest` walks `rest` after `e`'s step. */
  lemma WalkCons(dir: seq<string>, e: Entry, rest: seq<Entry>, acc: seq<string>)
    ensures GetAllFiles(dir, [e] + rest, acc) == GetAllFiles(dir, rest, AddEntry(dir, e, acc))
  {
    assert ([e] + rest)[1..] == rest;
  }

  /** The URL of a top-level file whose name holds a backslash. */
  lemma BackslashNameUrl(d: string, f: string)
    requires Free(d, '\\') && Free(f, '\\')
    ensures FileUrl([d + "\\" + f], '/') == "/" + d + "/" + f
  {
    var name := d + "\\" + f;
    assert Join([name], '/') == name;
    var r := ReplaceAll(name, '\\', '/');
    assert |r| == |name|;
    forall i | 0 <= i < |r|
      ensures r[i] == (d + "/" + f)[i]
    {
      if i < |d| {
        assert name[i] == d[i];
      } else if i > |d| {
        assert name[i] == f[i - |d| - 1];
      }
    }
    assert r == d + "/" + f;
  }

  /** The URL of a file one directory down. */
  lemma NestedUrl(d: string, f: string)
    requires Free(d, '\\') && Free(f, '\\')
    ensures FileUrl([d, f], '/') == "/" + d + "/" + f
  {
    var joined := Join([d, f], '/');
    assert [d, f][1..] == [f];
    assert Join([f], '/') == f;
    assert joined == d + ['/'] + f;
    forall i | 0 <= i < |joined|
      ensures joined[i] != '\\'
    {
      if i < |d| {
        assert joined[i] == d[i];
      } else if i > |d| {
        assert joined[i] == f[i - |d| - 1];
      }
    }
    ReplaceAllFree(joined, '\\', '/');
  }

  /** In a well-formed site every URL of the precache list is listed once. */
  lemma SiteUrlsDistinct(site: seq<Entry>)
    requires WellFormed(site)
    ensures Distinct(SiteUrls(site))
  {
    GetAllFilesAppendsListed([], site, []);
    ListedPathsDistinct(site);
    ListedPathsStart(site);
    ListedPathsClean(site);
    assert SiteUrls(site) == Urls([], ListedPaths(site));
    UrlsDistinct(ListedPaths(site));
  }
}

=== FILE: text.dfy ===
/** String primitives of JavaScript as the three scripts use them.
    A JavaScript string is modelled as a `string` of Unicode scalar values;
    where the scripts observe UTF-16 code units (`length`) this is made
    explicit by `Utf16Length`. */
module Text {

  /** `s.startsWith(prefix)` */
  predicate StartsWith(s: string, prefix: string) {
    |prefix| <= |s| && s[..|prefix|] == prefix
  }

  function Min(a: int, b: int): int {
    if a <= b then a else b
  }

  /** `s.substring(start, end)` for `start <= end`: both bounds are clamped to
      the length of `s`. The scripts only apply it to ASCII text, where code
      units and characters coincide. */
  function Substring(s: string, start: nat, end: nat): (r: string)
    requires start <= end
    ensures |r| == Min(end, |s|) - Min(start, |s|)
    ensures forall i | 0 <= i < |r| :: start + i < |s| && r[i] == s[start + i]
  {
    if |s| <= start then [] else s[start..Min(end, |s|)]
  }

  /** `s.substr(start, length)` */
  function Substr(s: string, start: nat, length: nat): (r: string)
    ensures |r| == Min(start + length, |s|) - Min(start, |s|)
    ensures forall i | 0 <= i < |r| :: start + i < |s| && r[i] == s[start + i]
  {
    Substring(s, start, start + length)
  }

  // ---------------------------------------------------------------------
  // Case and character classes
  // ---------------------------------------------------------------------

  /** `toLowerCase` on one character, restricted to ASCII letters. */
  function LowerChar(c: char): (r: char)
    ensures 'A' <= c <= 'Z' ==> 'a' <= r <= 'z' && r as int - c as int == 32
    ensures !('A' <= c <= 'Z') ==> r == c
  {
    if 'A' <= c <= 'Z' then (c as int + 32) as char else c
  }

  /** `s.toLowerCase()` (ASCII letters only; see README). */
  function ToLower(s: string): (r: string)
    ensures |r| == |s|
    ensures forall i | 0 <= i < |s| :: r[i] == LowerChar(s[i])
  {
    seq(|s|, i requires 0 <= i < |s| => LowerChar(s[i]))
  }

  /** Lower-casing twice is lower-casing once. */
  lemma ToLowerIdempotent(s: string)
    ensures ToLower(ToLower(s)) == ToLower(s)
  {
  }

  /** Membership in the regular-expression class `\w`. */
  predicate IsWordChar(c: char) {
    ('a' <= c <= 'z') || ('A' <= c <= 'Z') || ('0' <= c <= '9') || c == '_'
  }

  /** The characters `String.prototype.trim` removes: ECMAScript WhiteSpace
      (TAB, VT, FF, SP, NBSP, ZWNBSP and the Space_Separator category) and
      LineTerminator (LF, CR, LS, PS). */
  predicate IsJsSpace(c: char) {
    c == '\t' || c == '\n' || c == '\U{000B}' || c == '\U{000C}' || c == '\r' || c == ' '
    || c == '\U{00A0}' || c == '\U{1680}' || ('\U{2000}' <= c <= '\U{200A}')
    || c == '\U{2028}' || c == '\U{2029}' || c == '\U{202F}' || c == '\U{205F}'
    || c == '\U{3000}' || c == '\U{FEFF}'
  }

  predicate AllSpace(s: string) {
    forall i | 0 <= i < |s| :: IsJsSpace(s[i])
  }

  // ---------------------------------------------------------------------
  // trim
  // ---------------------------------------------------------------------

  /** Number of whitespace characters at the start of `s`. */
  function LeadingSpaces(s: string): (n: nat)
    ensures n <= |s|
    ensures AllSpace(s[..n])
    ensures n < |s| ==> !IsJsSpace(s[n])
  {
    if |s| == 0 || !IsJsSpace(s[0]) then 0
    else
      var n := 1 + LeadingSpaces(s[1..]);
      assert s[..n] == [s[0]] + s[1..][..n - 1];
      n
  }

  /** Number of whitespace characters at the end of `s`. */
  function TrailingSpaces(s: string): (n: nat)
    ensures n <= |s|
    ensures AllSpace(s[|s| - n..])
    ensures n < |s| ==> !IsJsSpace(s[|s| - n - 1])
  {
    if |s| == 0 || !IsJsSpace(s[|s| - 1]) then 0
    else
      var t := s[..|s| - 1];
      var n := 1 + TrailingSpaces(t);
      assert s[|s| - n..] == t[|t| - (n - 1)..] + [s[|s| - 1]];
      n
  }

  /** `s.trim()`: the result is the infix of `s` obtained by removing the
      longest whitespace prefix and suffix. */
  function Trim(s: string): (r: string)
    ensures exists i: nat, j: nat :: TrimmedAt(s, i, j) && r == s[i..j]
  {
    var a := LeadingSpaces(s);
    var t := s[a..];
    var n := TrailingSpaces(t);
    var b := |t| - n;
    assert t[..b] == s[a..a + b];
    assert s[a + b..] == t[|t| - n..];
    assert b > 0 ==> s[a + b - 1] == t[|t| - n - 1];
    assert TrimmedAt(s, a, a + b);
    t[..b]
  }

  /** A non-space character lies at or after the end of a space prefix. */
  lemma SpacePrefixBound(s: string, i: nat, k: nat)
    requires i <= |s| && AllSpace(s[..i])
    requires k < |s| && !IsJsSpace(s[k])
    ensures i <= k
  {
  }

  /** A non-space character lies before the start of a space suffix. */
  lemma SpaceSuffixBound(s: string, j: nat, k: nat)
    requires j <= |s| && AllSpace(s[j..])
    requires k < |s| && !IsJsSpace(s[k])
    ensures k < j
  {
  }

  /** `s[i..j]` is `s` with whitespace cut off both ends, none left at
      either end of what remains. */
  predicate TrimmedAt(s: string, i: nat, j: nat) {
    && i <= j <= |s|
    && AllSpace(s[..i]) && AllSpace(s[j..])
    && (i == j || (!IsJsSpace(s[i]) && !IsJsSpace(s[j - 1])))
  }

  lemma TrimmedAtUnique(s: string, i: nat, j: nat, i': nat, j': nat)
    requires TrimmedAt(s, i, j) && TrimmedAt(s, i', j')
    ensures s[i..j] == s[i'..j']
  {
    if i' < j' {
      SpacePrefixBound(s, i, i');
      SpaceSuffixBound(s, j, j' - 1);
    }
    if i < j {
      SpacePrefixBound(s, i', i);
      SpaceSuffixBound(s, j', j - 1);
    }
  }

  /** Where `Trim` cuts. */
  lemma TrimBounds(s: string) returns (i: nat, j: nat)
    ensures TrimmedAt(s, i, j) && Trim(s) == s[i..j]
  {
    var r := Trim(s);
    assert exists i: nat, j: nat :: TrimmedAt(s, i, j) && r == s[i..j];
    i, j :| TrimmedAt(s, i, j) && r == s[i..j];
  }

  /** `Trim` is the only infix with whitespace outside it and none at its
      ends. */
  lemma TrimUnique(s: string, i: nat, j: nat)
    requires TrimmedAt(s, i, j)
    ensures Trim(s) == s[i..j]
  {
    var i', j' := TrimBounds(s);
    TrimmedAtUnique(s, i, j, i', j');
  }

  /** Whitespace added around a string does not change its trimmed form. */
  lemma {:induction false} TrimPadding(a: string, v: string, b: string)
    requires AllSpace(a) && AllSpace(b)
    ensures Trim(a + v + b) == Trim(v)
  {
    var i, j := TrimBounds(v);
    var s := a + v + b;
    var i', j' := |a| + i, |a| + j;
    PaddedTrimmedAt(a, v, b, i, j);
    TrimUnique(s, i', j');
    assert Trim(s) == s[i'..j'];
    PaddedInfix(a, v, b, i, j);
    assert s[i'..j'] == v[i..j];
  }

  lemma PaddedInfix(a: string, v: string, b: string, i: nat, j: nat)
    requires i <= j <= |v|
    ensures (a + v + b)[|a| + i..|a| + j] == v[i..j]
  {
    var s := a + v + b;
    forall k | 0 <= k < j - i
      ensures s[|a| + i..|a| + j][k] == v[i..j][k]
    {
      assert s[|a| + i + k] == v[i + k];
    }
  }

  lemma PaddedTrimmedAt(a: string, v: string, b: string, i: nat, j: nat)
    requires AllSpace(a) && AllSpace(b)
    requires TrimmedAt(v, i, j)
    ensures TrimmedAt(a + v + b, |a| + i, |a| + j)
  {
    var s := a + v + b;
    assert s[..|a| + i] == a + v[..i];
    assert s[|a| + j..] == v[j..] + b;
    if i < j {
      assert s[|a| + i] == v[i] && s[|a| + j - 1] == v[j - 1];
    }
  }

  // ---------------------------------------------------------------------
  // UTF-16 length
  // ---------------------------------------------------------------------

  /** Number of UTF-16 code units that encode `c`. */
  function Utf16Units(c: char): nat {
    if c as int <= 0xFFFF then 1 else 2
  }

  /** The positions of the characters outside the Basic Multilingual Plane,
      each of which UTF-16 encodes as a surrogate pair. */
  function Astral(s: string): set<int> {
    set i | 0 <= i < |s| && s[i] as int > 0xFFFF
  }

  /** `s.length` in JavaScript: UTF-16 code units, so a character outside
      the Basic Multilingual Plane counts twice. */
  function Utf16Length(s: string): (n: nat)
    ensures n == |s| + |Astral(s)|
    ensures |s| <= n <= 2 * |s|
    ensures n == |s| <==> forall i | 0 <= i < |s| :: s[i] as int <= 0xFFFF
    decreases |s|
  {
    if |s| == 0 then 0
    else
      var n := Utf16Length(s[..|s| - 1]) + Utf16Units(s[|s| - 1]);
      AstralSnoc(s);
      n
  }

  /** Extending a string by one character adds its position to `Astral`
      exactly when it lies outside the Basic Multilingual Plane. */
  lemma AstralSnoc(s: string)
    requires |s| > 0
    ensures Astral(s) == Astral(s[..|s| - 1]) + (if s[|s| - 1] as int > 0xFFFF then {|s| - 1} else {})
    ensures |s| - 1 !in Astral(s[..|s| - 1])
  {
    var p := s[..|s| - 1];
    assert forall i | 0 <= i < |p| :: p[i] == s[i];
  }

  // ---------------------------------------------------------------------
  // Positional numerals: Number.prototype.toString(radix)
  // ---------------------------------------------------------------------

  /** The digit character for value `d`: `0`-`9` then `a`-`z`. */
  function DigitChar(d: nat): (c: char)
    requires d < 36
  {
    if d < 10 then ('0' as int + d) as char else ('a' as int + d - 10) as char
  }

  /** A lower-case digit character of the given radix. */
  predicate IsDigitOf(c: char, radix: nat) {
    (('0' <= c <= '9') || ('a' <= c <= 'z')) && DigitValue(c) < radix
  }

  /** The value of a digit character (0 for anything else). */
  function DigitValue(c: char): nat {
    if '0' <= c <= '9' then c as int - '0' as int
    else if 'a' <= c <= 'z' then c as int - 'a' as int + 10
    else 0
  }

  /** `n.toString(radix)` for a non-negative integer `n`: lower-case digits,
      most significant first, no leading zero. */
  function ToRadix(n: nat, radix: nat): (r: string)
    requires 2 <= radix <= 36
    ensures |r| > 0
    ensures forall i | 0 <= i < |r| :: IsDigitOf(r[i], radix)
    ensures |r| > 1 ==> r[0] != '0'
    decreases n
  {
    if n < radix then [DigitChar(n)]
    else
      DivStep(n, radix);
      ToRadix(n / radix, radix) + [DigitChar(n % radix)]
  }

  /** Reads a numeral back: the inverse of `ToRadix`. */
  function FromRadix(s: string, radix: nat): nat
    decreases |s|
  {
    if |s| == 0 then 0
    else FromRadix(s[..|s| - 1], radix) * radix + DigitValue(s[|s| - 1])
  }

  /** One step of positional notation: quotient and remainder. */
  lemma DivStep(n: nat, radix: nat)
    requires 2 <= radix <= 36 && radix <= n
    ensures 1 <= n / radix < n && 0 <= n % radix < radix
    ensures n == (n / radix) * radix + n % radix
  {
    var q, d := n / radix, n % radix;
    assert q * radix == n - d > 0;
    MulMonotone(2, radix, q);
    assert 2 * q <= q * radix;
  }

  lemma DigitValueOfDigitChar(d: nat)
    requires d < 36
    ensures DigitValue(DigitChar(d)) == d
  {
  }

  /** Writing a number and reading it back gives the number. */
  lemma {:induction false} FromRadixToRadix(n: nat, radix: nat)
    requires 2 <= radix <= 36
    ensures FromRadix(ToRadix(n, radix), radix) == n
    decreases n
  {
    var r := ToRadix(n, radix);
    if n < radix {
      DigitValueOfDigitChar(n);
    } else {
      var q, d := n / radix, n % radix;
      DivStep(n, radix);
      FromRadixToRadix(q, radix);
      DigitValueOfDigitChar(d);
      assert r[..|r| - 1] == ToRadix(q, radix);
    }
  }

  /** Distinct numbers have distinct numerals. */
  lemma ToRadixInjective(m: nat, n: nat, radix: nat)
    requires 2 <= radix <= 36
    requires ToRadix(m, radix) == ToRadix(n, radix)
    ensures m == n
  {
    FromRadixToRadix(m, radix);
    FromRadixToRadix(n, radix);
  }

  /** A numeral as `ToRadix` writes it: digits of the radix, no leading zero. */
  predicate IsNumeral(s: string, radix: nat) {
    && |s| > 0
    && (forall i | 0 <= i < |s| :: IsDigitOf(s[i], radix))
    && (|s| > 1 ==> s[0] != '0')
  }

  lemma CharDigitRoundTrip(c: char, radix: nat)
    requires IsDigitOf(c, radix)
    ensures DigitValue(c) < 36 && DigitChar(DigitValue(c)) == c
  {
  }

  /** A numeral with a non-zero leading digit denotes a positive number. */
  lemma {:induction false} NumeralPositive(s: string, radix: nat)
    requires 2 <= radix <= 36
    requires |s| > 0 && s[0] != '0'
    requires forall i | 0 <= i < |s| :: IsDigitOf(s[i], radix)
    ensures FromRadix(s, radix) >= 1
    decreases |s|
  {
    if |s| > 1 {
      var p := s[..|s| - 1];
      assert p[0] == s[0];
      assert forall i | 0 <= i < |p| :: p[i] == s[i];
      NumeralPositive(p, radix);
      MulMonotone(1, FromRadix(p, radix), radix);
    }
  }

  /** Quotient and remainder are unique. */
  lemma DivUnique(n: nat, q: nat, d: nat, radix: nat)
    requires 2 <= radix && d < radix && n == q * radix + d
    ensures n / radix == q && n % radix == d
  {
    var q', d' := n / radix, n % radix;
    assert n == q' * radix + d';
    if q' > q {
      MulStep(q, q', radix);
    } else if q' < q {
      MulStep(q', q, radix);
    }
  }

  lemma MulMonotone(a: nat, b: nat, m: nat)
    requires a <= b
    ensures a * m <= b * m
  {
  }

  lemma MulStep(a: nat, b: nat, m: nat)
    requires a < b
    ensures a * m + m <= b * m
  {
    MulMonotone(a + 1, b, m);
    assert (a + 1) * m == a * m + m;
  }

  /** Reading a numeral and writing the number back gives the numeral. */
  lemma {:induction false} ToRadixFromRadix(s: string, radix: nat)
    requires 2 <= radix <= 36
    requires IsNumeral(s, radix)
    ensures ToRadix(FromRadix(s, radix), radix) == s
    decreases |s|
  {
    var p, c := s[..|s| - 1], s[|s| - 1];
    var n := FromRadix(s, radix);
    CharDigitRoundTrip(c, radix);
    if |p| == 0 {
      assert n == DigitValue(c);
    } else {
      assert p[0] == s[0];
      var m := FromRadix(p, radix);
      assert n == m * radix + DigitValue(c);
      NumeralPositive(p, radix);
      MulMonotone(1, m, radix);
      DivUnique(n, m, DigitValue(c), radix);
      assert ToRadix(n, radix) == ToRadix(m, radix) + [c];
      ToRadixFromRadix(p, radix);
      assert s == p + [c];
    }
  }

  /** `s.indexOf(c)`: the position of the first `c`, or -1. */
  function FirstIndexOf(s: string, c: char): (r: int)
    ensures -1 <= r < |s|
    ensures r >= 0 ==> s[r] == c && Free(s[..r], c)
    ensures r == -1 ==> Free(s, c)
  {
    if |s| == 0 then -1
    else if s[0] == c then 0
    else
      var k := FirstIndexOf(s[1..], c);
      if k < 0 then -1 else k + 1
  }

  lemma {:induction false} FirstIndexAfterFree(a: string, c: char, b: string)
    requires Free(a, c)
    ensures FirstIndexOf(a + [c] + b, c) == |a|
    decreases |a|
  {
    if |a| > 0 {
      assert (a + [c] + b)[1..] == a[1..] + [c] + b;
      FirstIndexAfterFree(a[1..], c, b);
    }
  }

  /** The part before the first separator is determined by the whole. */
  lemma PrefixBeforeSeparator(a1: string, b1: string, a2: string, b2: string, c: char)
    requires Free(a1, c) && Free(a2, c)
    requires a1 + [c] + b1 == a2 + [c] + b2
    ensures a1 == a2
  {
    FirstIndexAfterFree(a1, c, b1);
    FirstIndexAfterFree(a2, c, b2);
    assert (a1 + [c] + b1)[..|a1|] == a1;
    assert (a2 + [c] + b2)[..|a2|] == a2;
  }

  /** No element occurs twice. */
  predicate Distinct<T(==)>(s: seq<T>) {
    forall i, j | 0 <= i < j < |s| :: s[i] != s[j]
  }

  /** Joining two repetition-free sequences with no common element. */
  lemma DistinctAppend<T>(a: seq<T>, b: seq<T>)
    requires Distinct(a) && Distinct(b)
    requires forall x | x in a :: x !in b
    ensures Distinct(a + b)
  {
    forall i, j | 0 <= i < j < |a + b|
      ensures (a + b)[i] != (a + b)[j]
    {
      if i < |a| && j >= |a| {
        assert (a + b)[i] in a;
        assert (a + b)[j] == b[j - |a|];
      }
    }
  }

  /** `s.lastIndexOf(c)`: the position of the last `c`, or -1. */
  function LastIndexOf(s: string, c: char): (r: int)
    ensures -1 <= r < |s|
    ensures r >= 0 ==> s[r] == c && Free(s[r + 1..], c)
    ensures r == -1 ==> Free(s, c)
    decreases |s|
  {
    if |s| == 0 then -1
    else if s[|s| - 1] == c then |s| - 1
    else
      var r := LastIndexOf(s[..|s| - 1], c);
      LastIndexOfStep(s, c, r);
      r
  }

  /** The last `c` of a string that does not end in `c` is the last `c` of
      its prefix. */
  lemma LastIndexOfStep(s: string, c: char, r: int)
    requires |s| > 0 && s[|s| - 1] != c && -1 <= r < |s| - 1
    requires r >= 0 ==> Free(s[..|s| - 1][r + 1..], c)
    requires r == -1 ==> Free(s[..|s| - 1], c)
    ensures r >= 0 ==> Free(s[r + 1..], c)
    ensures r == -1 ==> Free(s, c)
  {
    var p := s[..|s| - 1];
    forall j | r < j < |s|
      ensures s[j] != c
    {
      if j < |p| {
        assert s[j] == p[j];
        if r >= 0 {
          assert p[j] == p[r + 1..][j - r - 1];
        }
      }
    }
  }

  /** An occurrence of `c` lies at or before the last one. */
  lemma LastIndexBound(s: string, c: char, k: nat)
    requires k < |s| && s[k] == c
    ensures k <= LastIndexOf(s, c)
  {
    var r := LastIndexOf(s, c);
    assert !Free(s, c) by { assert s[k] == c; }
  }

  /** The last `c` of `a + [c] + b` is the one after `a` when `b` has none. */
  lemma LastIndexAfter(a: string, c: char, b: string)
    requires Free(b, c)
    ensures LastIndexOf(a + [c] + b, c) == |a|
  {
    var s := a + [c] + b;
    LastIndexBound(s, c, |a|);
    var r := LastIndexOf(s, c);
    assert s[|a| + 1..] == b;
  }

  /** `s.replace(/<from>/g, <to>)` for a single character. */
  function ReplaceAll(s: string, from: char, to: char): (r: string)
    ensures |r| == |s|
    ensures forall i | 0 <= i < |s| :: r[i] == if s[i] == from then to else s[i]
  {
    seq(|s|, i requires 0 <= i < |s| => if s[i] == from then to else s[i])
  }

  /** Replacing a character that does not occur changes nothing. */
  lemma ReplaceAllFree(s: string, from: char, to: char)
    requires Free(s, from)
    ensures ReplaceAll(s, from, to) == s
  {
  }

  // ---------------------------------------------------------------------
  // Joining and splitting on a separator
  // ---------------------------------------------------------------------

  /** `parts.join(sep)` */
  function Join(parts: seq<string>, sep: char): string
    decreases |parts|
  {
    if |parts| == 0 then []
    else if |parts| == 1 then parts[0]
    else parts[0] + [sep] + Join(parts[1..], sep)
  }

  /** The maximal separator-free runs of `s`, in order (what `s.split(sep)`
      returns). The scripts never split; this is the inverse that
      `JoinInjective` is proved with. */
  function Split(s: string, sep: char): (r: seq<string>)
    ensures |r| > 0
    decreases |s|
  {
    if |s| == 0 then [[]]
    else if s[0] == sep then [[]] + Split(s[1..], sep)
    else
      var t := Split(s[1..], sep);
      [[s[0]] + t[0]] + t[1..]
  }

  predicate Free(s: string, c: char) {
    forall i | 0 <= i < |s| :: s[i] != c
  }

  lemma FreeAppend(a: string, b: string, c: char)
    requires Free(a, c) && Free(b, c)
    ensures Free(a + b, c)
  {
    assert forall i | 0 <= i < |a + b| :: (a + b)[i] == if i < |a| then a[i] else b[i - |a|];
  }

  lemma {:induction false} SplitPrefix(p: string, rest: string, sep: char)
    requires Free(p, sep)
    ensures Split(p + [sep] + rest, sep) == [p] + Split(rest, sep)
    ensures Split(p, sep) == [p]
    decreases |p|
  {
    if |p| == 0 {
      assert p + [sep] + rest == [sep] + rest;
      assert ([sep] + rest)[1..] == rest;
    } else {
      SplitPrefix(p[1..], rest, sep);
      assert (p + [sep] + rest)[1..] == p[1..] + [sep] + rest;
      assert [p[0]] + p[1..] == p;
    }
  }

  /** Splitting a join of separator-free parts gives the parts back. */
  lemma {:induction false} SplitJoin(parts: seq<string>, sep: char)
    requires |parts| > 0
    requires forall k | 0 <= k < |parts| :: Free(parts[k], sep)
    ensures Split(Join(parts, sep), sep) == parts
    decreases |parts|
  {
    if |parts| == 1 {
      SplitPrefix(parts[0], [], sep);
    } else {
      SplitJoin(parts[1..], sep);
      SplitPrefix(parts[0], Join(parts[1..], sep), sep);
      assert [parts[0]] + parts[1..] == parts;
    }
  }

  /** Hence joining is injective on non-empty lists of separator-free parts. */
  lemma JoinInjective(a: seq<string>, b: seq<string>, sep: char)
    requires |a| > 0 && |b| > 0
    requires forall k | 0 <= k < |a| :: Free(a[k], sep)
    requires forall k | 0 <= k < |b| :: Free(b[k], sep)
    requires Join(a, sep) == Join(b, sep)
    ensures a == b
  {
    SplitJoin(a, sep);
    SplitJoin(b, sep);
  }
}

=== FILE: wrappers.dfy ===
/** The optional-value datatype used throughout the model: a JavaScript value
    that may be `undefined`/`null` (a cache miss, an absent file, an empty
    session slot) is an `Option`. */
module Wrappers {

  datatype Option<+T> = None | Some(value: T) {

    /** Returns the value held in Some, or `default` for None. */
    function GetOr(default: T): T {
      match this
      case Some(v) => v
      case None => default
    }
  }
}
